=== FILE: README.md ===
# Facility booking rules, modelled in Dafny

This project models the rules engine of a Django facility-booking application. Users
reserve time slots on facilities. Staff manage facilities and confirm or cancel
bookings. The model is a set of pure functions over an in-memory snapshot of the
database (`Domain.Store`): the facilities table and the bookings table, each a sequence
in queryset order. The model covers:

- `Booking.clean`. It runs four checks in order and raises the first that fails: the
  time range, "not in the past" for new bookings, capacity, and availability.
  `BookingModel.Clean` returns an `Outcome` holding that single error.
- The overlap queries: `Facility.is_available` for a new booking, and the query for a
  stored booking that leaves out its own row. Only confirmed bookings of the same
  facility count, and the test is the half-open one (`start < e` and `end > s`).
- The `confirm` and `cancel` transitions, which set the status unconditionally. The
  admin bulk actions, by contrast, are guarded and report how many rows they changed.
- The access tests of the booking and facility views. The booking list is scoped to
  the user's own bookings before any filter applies. The status effects of the cancel
  and confirm requests are modelled, and so are create, update and delete.
- The two filter forms (booking filter and facility filter) and the active-only
  facility choices. The booking form's `clean` assigns the owner of a new booking.
- The one rule inside the reminder task: which bookings get a reminder.

Time is an integer instant. The date of an instant comes from a function parameter
`dateOf: int -> int`, and `now` is a parameter. Saving goes through `BookingModel.Save`,
which refuses a row that breaks the `end_time > start_time` check constraint. Every
view that changes the store is proved to keep `Domain.ValidStore`: unique non-zero keys,
the check constraint on every row, and every booking's facility present. The admin bulk
actions work on the bookings table alone, and
`BookingAdmin.GuardedUpdateKeepsStoreValid` shows that they keep it too.

The model follows the code as written:

- Validation errors are not collected. The first failing check is the only error.
- The past check is `start < now`, so a booking starting exactly now passes it. It
  never applies to a booking that is already stored.
- "Already stored" is the truth value of `self.pk`, so a key of 0 reads as unsaved
  (`Domain.HasPk`, `BookingModel.ZeroKeyReadsAsUnsaved`). Keys handed out by the
  auto-increment column start at 1, so no stored row has key 0.
- Neither `Booking.confirm` nor the confirm view guards the transition. A cancelled
  booking can be confirmed again, and confirmation does not re-run the overlap check
  (`BookingViews.ConfirmCanDoubleBook`).
- A capacity is any non-negative integer, so 0 is admitted.
- `clean` does not check that the facility is active. Only the forms' facility
  choices restrict to active facilities.

## Model

| member | source | states |
|---|---|---|
| Domain.NewBooking | booking/apps/bookings/models.py:40-45 | An unsaved booking has no primary key and starts in status pending. |
| Domain.NewFacility | booking/apps/facilities/models.py:14-17 | A facility created without an explicit flag is active; capacity is a non-negative integer. |
| Domain.FindBooking | booking/apps/bookings/views.py:147 | The lookup finds a row with key `pk` when one exists, and reports none iff no row has that key. |
| FacilityModel.IsAvailable | booking/apps/facilities/models.py:51-64 | The facility is available for `[s, e)` iff no booking of this facility that is confirmed has `start < e` and `end > s`. |
| FacilityModel.ActiveFacilities | booking/apps/bookings/forms.py:22 | The booking forms offer exactly the active facilities, in table order; the facility list starts from the same set. |
| FacilityModel.GetAvailableSlots | booking/apps/facilities/models.py:43-49 | The placeholder returns no slot, for every date. |
| FacilityModel.OverlapIsSymmetric | booking/apps/facilities/models.py:60-61 | The query's overlap test is the half-open interval overlap relation, and that relation is symmetric. |
| FacilityModel.BackToBackIsAvailable | booking/apps/facilities/models.py:60-61 | A confirmed `[a, b)` does not block `[b, c)` or `[x, a)`, but does block intervals that reach one instant into it. |
| FacilityModel.TenToNoonExample | booking/apps/facilities/models.py:57-64 | With 10:00-12:00 confirmed: 9:00-10:00 and 12:00-13:00 are available, 11:59-13:00 is not. |
| FacilityModel.SubIntervalIsAvailable | booking/apps/facilities/models.py:60-61 | If `[s, e)` is available, every `[s', e')` with `s <= s'` and `e' <= e` is available. |
| FacilityModel.OnlyConfirmedBookingsOfFacilityMatter | booking/apps/facilities/models.py:57-62 | Two tables with the same confirmed bookings of the facility give the same answer, so other facilities and pending or cancelled bookings never matter. |
| FacilityModel.AvailabilityReadsRelevantOnly | booking/apps/facilities/models.py:57-62 | Availability against the whole table equals availability against its confirmed bookings of the facility alone. |
| FacilityModel.NoConfirmedBookingMeansAvailable | booking/apps/facilities/models.py:57-64 | With no confirmed booking of the facility, every interval is available. |
| BookingModel.NoOverlapExcluding | booking/apps/bookings/models.py:101-108 | The update-time query finds no row iff no confirmed overlapping booking of the facility has a key other than `pk`. |
| BookingModel.IsFacilityAvailable | booking/apps/bookings/models.py:97-108 | Available iff no booking conflicts: confirmed, same facility, overlapping and, when the booking has a non-zero key, not its own row. |
| BookingModel.Clean | booking/apps/bookings/models.py:76-95 | `end <= start` always yields the time-range error. Each later error is reported iff every earlier check passed and this one fails. The booking passes iff all four conditions hold. |
| BookingModel.Confirm | booking/apps/bookings/models.py:110-113 | The status becomes confirmed from any prior status; no other field changes. |
| BookingModel.Cancel | booking/apps/bookings/models.py:115-118 | The status becomes cancelled from any prior status; no other field changes. |
| BookingModel.Save | booking/apps/bookings/models.py:65-70 | A row with `end <= start` is refused. Otherwise a row without a key is appended under a fresh non-zero key. A keyed row replaces the row with its key, or is appended under that key when no row has it, as an UPDATE that matched nothing falls back to an INSERT. A table of uniquely and non-zero keyed, constraint-satisfying rows stays so when the saved row has no key or a non-zero one. |
| BookingModel.CleanPassMeetsConstraint | booking/apps/bookings/models.py:79-80 | A booking that passes `clean` satisfies the check constraint, so saving it succeeds. |
| BookingModel.PastCheckBoundary | booking/apps/bookings/models.py:83-84 | A booking starting exactly now, and any booking with a non-zero key, never gets the past error. |
| BookingModel.ZeroKeyReadsAsUnsaved | booking/apps/bookings/models.py:83-100 | A booking with key 0 counts as new: starting before now it gets the past error, and the overlap check is the facility's, with no row excluded. |
| BookingModel.CapacityBoundary | booking/apps/bookings/models.py:87-91 | A headcount equal to the capacity never gets the capacity error. |
| BookingModel.OnlyConfirmedBookingsBlock | booking/apps/bookings/models.py:97-108 | For new and stored bookings alike, dropping every booking that is not confirmed does not change availability. |
| BookingModel.RevalidationIgnoresOwnRow | booking/apps/bookings/models.py:101-108 | For a booking with a non-zero key, availability against the table equals availability against the table without its own row. |
| BookingModel.UnchangedBookingRevalidates | booking/apps/bookings/models.py:76-108 | An unchanged stored booking within capacity, with no other confirmed overlapping booking, passes `clean` at any time. |
| BookingModel.TransitionsAreUnguarded | booking/apps/bookings/models.py:110-118 | Confirm and cancel apply in any order; the last one decides; each is idempotent. |
| BookingModel.TransitionsKeepRowValid | booking/apps/bookings/models.py:110-118 | The transitions keep the key and the check constraint of a stored row. |
| BookingForms.ChooseFacility | booking/apps/bookings/forms.py:92-96 | A submitted facility is accepted iff it is an active facility with that key. |
| BookingForms.StatusChoice | booking/apps/bookings/forms.py:85-90 | `""` means no status filter, the three status names select that status, anything else is invalid. |
| BookingForms.CleanFilter | booking/apps/bookings/forms.py:92-111 | The filter form is valid iff the status is a choice and any facility given is an active one. Valid data carries the submitted values. |
| BookingForms.FilterQueryset | booking/apps/bookings/forms.py:133-152 | The result is a subsequence of the input. It holds only bookings matching every given criterion and every input booking that matches them all. |
| BookingForms.FilterQuerysetIsConjunction | booking/apps/bookings/forms.py:140-152 | The four conditional filters in sequence equal one filter by their conjunction. |
| BookingForms.EmptyFilterKeepsAll | booking/apps/bookings/forms.py:140-152 | With every filter absent the input is returned unchanged. |
| BookingForms.FilterOrderIsIrrelevant | booking/apps/bookings/forms.py:140-150 | Applying the facility and status filters, or the two date filters, in either order gives the same list. |
| BookingForms.AllStatusChoiceKeepsEveryStatus | booking/apps/bookings/forms.py:143-144 | The "All" choice excludes no booking on account of its status. |
| BookingForms.DateBoundsAreInclusive | booking/apps/bookings/forms.py:146-150 | A booking whose start date equals `date_from` and `date_to` passes both bounds. |
| BookingForms.DateFromIsUpwardClosed | booking/apps/bookings/forms.py:146-147 | With a monotone date function, a booking starting later than one that passes `date_from` passes too. |
| BookingForms.AssignOwner | booking/apps/bookings/forms.py:68-80 | The owner is set to the supplied user only when facility, start and end are present, the instance is new (no key, or key 0, since `not self.instance.pk` holds for both) and a user is given. Nothing else changes, and an instance with a non-zero key is untouched. |
| BookingViews.ViewAccess | booking/apps/bookings/views.py:57-61 | Staff may view every booking, owners their own, and nobody else may. |
| BookingViews.UpdateAccess | booking/apps/bookings/views.py:118-122 | Only the owner of a booking that is not cancelled may update it; staff who do not own it are refused. |
| BookingViews.CancelAccess | booking/apps/bookings/views.py:145-149 | Staff may always cancel; the owner only while the booking is not cancelled; others never. |
| BookingViews.CanView | booking/apps/bookings/views.py:57-61 | The detail test: staff or the owner. |
| BookingViews.CanUpdate | booking/apps/bookings/views.py:118-122 | The update test: the owner, while the booking is not cancelled. |
| BookingViews.CanCancel | booking/apps/bookings/views.py:145-149 | The cancel test: the owner of a booking not yet cancelled, or staff. |
| BookingViews.IsStaffOnly | booking/apps/bookings/views.py:173-176 | The confirm and delete test: staff only. |
| BookingViews.Scope | booking/apps/bookings/views.py:31-34 | Staff start from all bookings. Others start from exactly their own bookings, in order. |
| BookingViews.ListBookings | booking/apps/bookings/views.py:28-41 | The list is a subsequence of the table. For a non-staff user it holds only their own bookings, whatever the filter. A staff user with no valid filter sees every booking. A valid filter's criteria hold for every row. Every booking in the user's scope that meets a valid filter's criteria is listed. |
| BookingViews.ListedIffListable | booking/apps/bookings/views.py:28-39 | A row of the table is listed iff it is in the user's scope (staff, or the owner) and meets every criterion of a valid filter. |
| BookingViews.ListNeverLeaks | booking/apps/bookings/views.py:31-39 | A non-staff user's list never contains another user's booking. |
| BookingViews.DetailView | booking/apps/bookings/views.py:51-61 | 404 iff no such booking. On success the booking is returned and the user may view it; otherwise 403. |
| BookingViews.CancelView | booking/apps/bookings/views.py:142-156 | 404 iff absent, 403 iff the cancel test fails. On a valid store the request succeeds iff the booking is found and the cancel test passes. On success only that booking's status changes, to cancelled, and the store stays valid. |
| BookingViews.ConfirmView | booking/apps/bookings/views.py:170-181 | 403 iff not staff, checked before the lookup. 404 iff absent. On a valid store the request succeeds iff the user is staff and the booking is found. On success only that booking's status changes, to confirmed, whatever it was, and the store stays valid. |
| BookingViews.ConfirmCanDoubleBook | booking/apps/bookings/views.py:178-181 | Confirming a pending booking that overlaps a confirmed one turns a store without double bookings into one with a double booking. |
| BookingViews.DeleteView | booking/apps/bookings/views.py:197-206 | 403 iff not staff, then 404 iff absent. Succeeds iff the user is staff and the booking is found. On success exactly that row is removed, the others keep their order, and the store stays valid. |
| BookingViews.CreateView | booking/apps/bookings/views.py:99-103 | Succeeds iff the facility is an active choice and the new booking passes `clean`. When `clean` fails, its error is the response. The booking is appended, owned by the requester, pending, under a fresh key, and carries the submitted facility, title, description, times and headcount. The store stays valid. |
| BookingViews.CreatedBookingIsOwnedByRequester | booking/apps/bookings/forms.py:76-78 | Whatever owner the unsaved instance carried, the form's `clean` makes the requesting user its owner. |
| BookingViews.UpdateView | booking/apps/bookings/views.py:112-122 | 404 iff absent, 403 iff the update test fails. Succeeds iff the facility is an active choice and the revised booking, key kept, passes `clean` against the table. An inactive or unknown facility is answered with the invalid-choice error, and a failing `clean` with its own error. For a non-zero key the past check never rejects. On success only that row changes, keeping key, owner and status. The store stays valid. |
| BookingViews.UpdateKeepsOwnSlot | booking/apps/bookings/models.py:101-108 | An owner re-submitting a booking's own facility and times, within capacity and with no other confirmed booking in the way, succeeds at any time: the booking's own row never blocks it. |
| BookingViews.OverlapScenario | booking/apps/bookings/models.py:93-100 | With A confirmed for 10:00-12:00, creating B for 11:00-13:00 on the same facility is rejected as unavailable. |
| BookingAdmin.ConfirmBookings | booking/apps/bookings/admin.py:36-42 | Exactly the selected pending rows become confirmed and nothing else changes. The count is the number of selected pending rows. |
| BookingAdmin.CancelBookings | booking/apps/bookings/admin.py:45-51 | Exactly the selected rows that are not cancelled become cancelled and nothing else changes. The count is their number. |
| BookingAdmin.GuardedUpdateKeepsStoreValid | booking/apps/bookings/admin.py:36-51 | A bulk status update keeps a valid store valid: keys, times and facilities are untouched. |
| BookingAdmin.ConfirmActionScope | booking/apps/bookings/admin.py:38 | The confirm action never moves a cancelled booking to confirmed, leaves confirmed and unselected rows alone, and leaves no selected row pending. |
| BookingAdmin.CancelActionScope | booking/apps/bookings/admin.py:47 | Unselected rows are unchanged and every selected row ends cancelled. |
| BookingAdmin.ConfirmIsIdempotent | booking/apps/bookings/admin.py:38 | A second confirm of the same selection changes nothing and reports 0. |
| BookingAdmin.CancelIsIdempotent | booking/apps/bookings/admin.py:47 | A second cancel of the same selection changes nothing and reports 0. |
| BookingTasks.ReminderSelection | booking/apps/bookings/tasks.py:114-122 | Exactly the confirmed bookings whose start date is the day after today, in order. |
| Text.IContains | booking/apps/facilities/forms.py:35-38 | The term matches iff, after lower-casing both sides, it occurs as a contiguous substring. |
| FacilityForms.CleanFilter | booking/apps/facilities/forms.py:22-27 | The filter form is valid iff any given minimum capacity is at least 1. |
| FacilityForms.FilterQueryset | booking/apps/facilities/forms.py:29-42 | The result is a subsequence of the input. It holds only facilities matching name, location and minimum capacity, and every input facility that matches them all. |
| FacilityForms.EmptyFilterKeepsAll | booking/apps/facilities/forms.py:35-42 | Empty name and location and no minimum leave the input unchanged. |
| FacilityForms.MinCapacityIsLowerBound | booking/apps/facilities/forms.py:39-40 | On a valid form the minimum is at least 1, and a facility passes iff its capacity is at least the minimum. |
| FacilityForms.NameMatchIgnoresCase | booking/apps/facilities/forms.py:35-36 | The name criterion gives the same answer whatever the case of the name or of the search term. |
| FacilityForms.FieldErrors | booking/apps/facilities/models.py:12-14 | Name is refused iff empty or over 100 characters, location iff empty or over 200, capacity iff negative. |
| FacilityForms.ValidateFacility | booking/apps/facilities/forms.py:45-54 | The form is valid iff no field is refused, and then yields a facility with exactly the submitted values. Otherwise it reports the refused fields. |
| FacilityForms.FacilityFormExamples | booking/apps/facilities/tests.py:57-75 | An empty name or a capacity of -1 is refused; a capacity of 0 is accepted. |
| FacilityViews.FacilityList | booking/apps/facilities/views.py:23-31 | Only active facilities are listed, as a subsequence of them. With no valid filter, all of them; with a valid one, exactly the active facilities that match. |
| FacilityViews.StaffRequired | booking/apps/facilities/views.py:47-52 | The staff test guarding facility create, update and delete. |
| FacilityViews.CreateFacility | booking/apps/facilities/views.py:55-72 | 403 iff not staff. Succeeds iff staff and the form is valid. A staff user's invalid form is answered with exactly the refused fields. The appended facility carries the submitted name, location, capacity and active flag under a fresh key, and the store stays valid. |
| FacilityViews.UpdateFacility | booking/apps/facilities/views.py:74-90 | 403 iff not staff, checked before the lookup, then 404 iff absent. Succeeds iff staff, found and the form is valid. On success that facility keeps its key and carries the submitted values, and every other facility and booking is unchanged. |
| FacilityViews.DeleteFacility | booking/apps/facilities/views.py:92-101 | 403 iff not staff, then 404 iff absent. Succeeds iff the user is staff and the facility is found. The facility is removed and every other facility kept, in order. Exactly its bookings are removed (the foreign key cascades), and the store stays valid. |
| Domain.FacilityIndex | booking/apps/facilities/views.py:74-101 | The `get_object` lookup of the update and delete views: it finds the first facility with the key when one exists, and reports none (the 404 path) iff no facility has that key. |
| FacilityViews.StaffGatesEveryChange | booking/apps/facilities/views.py:47-52 | Create, update and delete each answer 403 exactly to users who are not staff. |

## Left out

- Concurrency is not modelled: there are no transactions, and the check-then-write race
  between concurrent creates or confirms is absent. The model is one request at a time
  over one snapshot.
- Time zones and the real clock are not modelled. `now` is a parameter and the date of
  an instant is an abstract `dateOf`. The booking form's "next full hour" initial
  values are left out.
- E-mail notifications are I/O and are left out: the Celery tasks, templates and
  sending. Of the reminder task only its selection is kept, as
  `BookingTasks.ReminderSelection`.
- Output that is not a rule is left out: flash messages, JSON and redirect responses,
  templates and context data. Also left out: the create view's pre-selection of a
  facility from the query string, which only sets an initial value.
- Login is not modelled. Every user reaching a view is taken as authenticated, so the
  redirect to the login page is absent.
- The accounts app, migrations, the `init_db` and `wait_for_db` commands, settings,
  URL configuration and app configs are left out. They carry no booking rule.
- Admin display configuration is left out, and so are ORM ordering
  (`-start_time`, `name`), `select_related` and pagination. Querysets keep the order
  of the sequence given.
- Fields with no rule are left out: descriptions, images and opening hours of
  facilities, and creation and update timestamps. So is the default headcount of 1,
  because the form always submits a headcount.
- The booking form's field-level checks are not modelled: title required and at most
  100 characters, parsing of dates and times, and a non-negative headcount. Inputs
  arrive already parsed.
- FacilityForms.FieldErrors: the framework strips leading and trailing whitespace from
  text inputs, and the model does not, so a facility name of only spaces is accepted
  here but refused by the form.
- FacilityForms.FilterQueryset: for the same reason, the name and location filter terms
  are matched unstripped.
- BookingViews.CreateView: an invalid facility choice is modelled as a rejection
  (`InvalidChoice`) with nothing saved. In the code the form still runs `Booking.clean`
  on an instance without a facility. Once the time-range and past checks pass, reading
  `self.facility.capacity` (booking/apps/bookings/models.py:87) raises an exception that
  is not a validation error, so the request ends in a server error rather than a form
  error. That outcome is not modelled. On update the instance keeps its old facility,
  so the form is only rejected.
- The database's upper bound on integer columns is not modelled: capacity and
  headcount are unbounded naturals.
- Text.IContains: case folding covers ASCII letters only. Whether non-ASCII letters
  fold depends on the database backend.

=== FILE: booking_admin.dfy ===
/** The admin's bulk actions on a selection of bookings. */
module BookingAdmin {
  import opened Domain
  import BookingModel
  import Seqs

  /** The row is one of the bookings the admin selected (by primary key). */
  predicate Selected(b: Booking, selection: set<nat>)
  {
    b.id.Some? && b.id.value in selection
  }

  /** The rows `confirm_bookings` updates: selected and pending. */
  predicate ToConfirm(b: Booking, selection: set<nat>)
  {
    Selected(b, selection) && b.status == Pending
  }

  /** The rows `cancel_bookings` updates: selected and not yet cancelled. */
  predicate ToCancel(b: Booking, selection: set<nat>)
  {
    Selected(b, selection) && b.status != Cancelled
  }

  /** `ToConfirm` for a fixed selection, as the guard of an update. */
  function ConfirmGuard(selection: set<nat>): Booking -> bool
  {
    b => ToConfirm(b, selection)
  }

  /** `ToCancel` for a fixed selection, as the guard of an update. */
  function CancelGuard(selection: set<nat>): Booking -> bool
  {
    b => ToCancel(b, selection)
  }

  /**
   * `after` is `before` with exactly the rows satisfying `guard` moved to status `s`;
   * every other row, and every other field, is unchanged.
   */
  predicate GuardedUpdate(before: seq<Booking>, after: seq<Booking>, guard: Booking -> bool, s: Status)
  {
    && |after| == |before|
    && forall i :: 0 <= i < |before| ==>
         if guard(before[i]) then after[i].status == s && SameExceptStatus(after[i], before[i])
         else after[i] == before[i]
  }

  /** A guarded update extends row by row. */
  lemma GuardedUpdateStep(before: seq<Booking>, after: seq<Booking>, guard: Booking -> bool, s: Status,
                          b: Booking, b': Booking)
    requires GuardedUpdate(before, after, guard, s)
    requires if guard(b) then b'.status == s && SameExceptStatus(b', b) else b' == b
    ensures GuardedUpdate(before + [b], after + [b'], guard, s)
  {
  }

  /**
   * `BookingAdmin.confirm_bookings`: `filter(status='pending').update(status='confirmed')`
   * over the selection; `updated` is the number of rows changed.
   */
  method ConfirmBookings(bookings: seq<Booking>, selection: set<nat>) returns (after: seq<Booking>, updated: nat)
    ensures GuardedUpdate(bookings, after, ConfirmGuard(selection), Confirmed)
    ensures updated == Seqs.Count(bookings, ConfirmGuard(selection))
  {
    after := [];
    updated := 0;
    var i := 0;
    while i < |bookings|
      invariant 0 <= i <= |bookings|
      invariant GuardedUpdate(bookings[..i], after, ConfirmGuard(selection), Confirmed)
      invariant updated == Seqs.Count(bookings[..i], ConfirmGuard(selection))
    {
      var b := bookings[i];
      var selected := ConfirmGuard(selection)(b);
      Seqs.FilterAppend(bookings[..i], b, ConfirmGuard(selection));
      assert bookings[..i + 1] == bookings[..i] + [b];
      var b' := if selected then BookingModel.Confirm(b) else b;
      GuardedUpdateStep(bookings[..i], after, ConfirmGuard(selection), Confirmed, b, b');
      after := after + [b'];
      if selected {
        updated := updated + 1;
      }
      i := i + 1;
    }
    assert bookings[..i] == bookings;
  }

  /**
   * `BookingAdmin.cancel_bookings`: `exclude(status='cancelled').update(status='cancelled')`
   * over the selection; `updated` is the number of rows changed.
   */
  method CancelBookings(bookings: seq<Booking>, selection: set<nat>) returns (after: seq<Booking>, updated: nat)
    ensures GuardedUpdate(bookings, after, CancelGuard(selection), Cancelled)
    ensures updated == Seqs.Count(bookings, CancelGuard(selection))
  {
    after := [];
    updated := 0;
    var i := 0;
    while i < |bookings|
      invariant 0 <= i <= |bookings|
      invariant GuardedUpdate(bookings[..i], after, CancelGuard(selection), Cancelled)
      invariant updated == Seqs.Count(bookings[..i], CancelGuard(selection))
    {
      var b := bookings[i];
      var selected := CancelGuard(selection)(b);
      Seqs.FilterAppend(bookings[..i], b, CancelGuard(selection));
      assert bookings[..i + 1] == bookings[..i] + [b];
      var b' := if selected then BookingModel.Cancel(b) else b;
      GuardedUpdateStep(bookings[..i], after, CancelGuard(selection), Cancelled, b, b');
      after := after + [b'];
      if selected {
        updated := updated + 1;
      }
      i := i + 1;
    }
    assert bookings[..i] == bookings;
  }

  /**
   * A bulk action keeps the store's guarantees: keys, times and facilities of every row
   * are untouched, so the key, check-constraint and foreign-key conditions still hold.
   */
  lemma GuardedUpdateKeepsStoreValid(facilities: seq<Facility>, before: seq<Booking>, after: seq<Booking>,
                                     guard: Booking -> bool, s: Status)
    requires GuardedUpdate(before, after, guard, s)
    ensures ValidStore(Store(facilities, before)) ==> ValidStore(Store(facilities, after))
  {
    assert forall i :: 0 <= i < |before| ==>
             && after[i].id == before[i].id && after[i].start == before[i].start
             && after[i].end == before[i].end && after[i].facility == before[i].facility;
  }

  /** The confirm action never moves a cancelled booking to confirmed, nor touches unselected rows. */
  lemma ConfirmActionScope(before: seq<Booking>, after: seq<Booking>, selection: set<nat>)
    requires GuardedUpdate(before, after, ConfirmGuard(selection), Confirmed)
    ensures forall i :: 0 <= i < |before| && before[i].status == Cancelled ==> after[i].status == Cancelled
    ensures forall i :: 0 <= i < |before| && before[i].status == Confirmed ==> after[i] == before[i]
    ensures forall i :: 0 <= i < |before| && !Selected(before[i], selection) ==> after[i] == before[i]
    ensures forall i :: 0 <= i < |before| ==> after[i].status != Pending || !Selected(after[i], selection)
  {
  }

  /** The cancel action leaves unselected rows alone and every selected row cancelled. */
  lemma CancelActionScope(before: seq<Booking>, after: seq<Booking>, selection: set<nat>)
    requires GuardedUpdate(before, after, CancelGuard(selection), Cancelled)
    ensures forall i :: 0 <= i < |before| && !Selected(before[i], selection) ==> after[i] == before[i]
    ensures forall i :: 0 <= i < |before| && Selected(before[i], selection) ==> after[i].status == Cancelled
  {
  }

  /** Confirming the same selection a second time changes nothing and reports 0. */
  lemma ConfirmIsIdempotent(before: seq<Booking>, after: seq<Booking>, again: seq<Booking>, selection: set<nat>)
    requires GuardedUpdate(before, after, ConfirmGuard(selection), Confirmed)
    requires GuardedUpdate(after, again, ConfirmGuard(selection), Confirmed)
    ensures again == after
    ensures Seqs.Count(after, ConfirmGuard(selection)) == 0
  {
    ConfirmActionScope(before, after, selection);
    assert forall i :: 0 <= i < |after| ==> !ToConfirm(after[i], selection);
    Seqs.FilterNone(after, ConfirmGuard(selection));
  }

  /** Cancelling the same selection a second time changes nothing and reports 0. */
  lemma CancelIsIdempotent(before: seq<Booking>, after: seq<Booking>, again: seq<Booking>, selection: set<nat>)
    requires GuardedUpdate(before, after, CancelGuard(selection), Cancelled)
    requires GuardedUpdate(after, again, CancelGuard(selection), Cancelled)
    ensures again == after
    ensures Seqs.Count(after, CancelGuard(selection)) == 0
  {
    forall i | 0 <= i < |before|
      ensures after[i].id == before[i].id
    {
      if ToCancel(before[i], selection) {
        assert SameExceptStatus(after[i], before[i]);
      }
    }
    CancelActionScope(before, after, selection);
    assert forall i :: 0 <= i < |after| ==> !ToCancel(after[i], selection);
    Seqs.FilterNone(after, CancelGuard(selection));
  }
}

=== FILE: booking_forms.dfy ===
/**
 * The booking forms: the choices they offer, the filter form's queryset filtering, and
 * the owner assignment in the booking form's `clean`.
 */
module BookingForms {
  import opened Wrappers
  import opened Domain
  import BookingModel
  import FacilityModel
  import Seqs

  /** Why a submitted form is rejected. */
  datatype FormError =
    | InvalidChoice                                        // a facility outside the offered choices
    | ModelError(error: BookingModel.ValidationError)      // raised by `Booking.clean`

  // ---------------------------------------------------------------------------
  // Choices

  /** Cleaning a submitted facility key: it must name one of the offered choices. */
  function ChooseFacility(fs: seq<Facility>, id: nat): (r: Option<Facility>)
    ensures r.Some? ==> r.value.id == id && r.value.isActive && r.value in fs
    ensures r.None? <==> forall i :: 0 <= i < |fs| ==> !(fs[i].id == id && fs[i].isActive)
  {
    var choices := FacilityModel.ActiveFacilities(fs);
    var found := FindFacility(choices, id);
    if found.None? then
      assert forall i :: 0 <= i < |fs| && fs[i].id == id && fs[i].isActive ==> fs[i] in choices;
      assert forall i :: 0 <= i < |choices| ==> choices[i].id in FacilityIds(choices);
      None
    else found
  }

  /**
   * The filter form's `status` choices: `""` ("All") means no status filter, the three
   * status names select that status, and anything else makes the form invalid.
   */
  function StatusChoice(s: string): (r: Option<Option<Status>>)
    ensures r == Some(None) <==> s == ""
    ensures r == Some(Some(Pending)) <==> s == "pending"
    ensures r == Some(Some(Confirmed)) <==> s == "confirmed"
    ensures r == Some(Some(Cancelled)) <==> s == "cancelled"
    ensures r.None? <==> s !in {"", "pending", "confirmed", "cancelled"}
  {
    if s == "" then Some(None)
    else if s == "pending" then Some(Some(Pending))
    else if s == "confirmed" then Some(Some(Confirmed))
    else if s == "cancelled" then Some(Some(Cancelled))
    else None
  }

  // ---------------------------------------------------------------------------
  // The filter form

  /** The filter form's submitted values; dates are day numbers. */
  datatype FilterInput = FilterInput(facility: Option<nat>, status: string,
                                     dateFrom: Option<int>, dateTo: Option<int>)

  /** The filter form's cleaned data: each absent field applies no filter. */
  datatype BookingFilter = BookingFilter(facility: Option<nat>, status: Option<Status>,
                                         dateFrom: Option<int>, dateTo: Option<int>)

  /** `is_valid()` of the filter form: the cleaned data, or `None` when invalid. */
  function CleanFilter(input: FilterInput, fs: seq<Facility>): (r: Option<BookingFilter>)
    ensures r.Some? <==>
              StatusChoice(input.status).Some?
              && (input.facility.Some? ==> ChooseFacility(fs, input.facility.value).Some?)
    ensures r.Some? ==> r.value.facility == input.facility && r.value.dateFrom == input.dateFrom
                        && r.value.dateTo == input.dateTo
                        && Some(r.value.status) == StatusChoice(input.status)
  {
    var status := StatusChoice(input.status);
    if status.None? then None
    else if input.facility.Some? && ChooseFacility(fs, input.facility.value).None? then None
    else Some(BookingFilter(input.facility, status.value, input.dateFrom, input.dateTo))
  }

  predicate FacilityMatches(f: BookingFilter, b: Booking)
  {
    f.facility.None? || b.facility == f.facility.value
  }

  predicate StatusMatches(f: BookingFilter, b: Booking)
  {
    f.status.None? || b.status == f.status.value
  }

  /** `date_from` is an inclusive lower bound on the date of the start time. */
  predicate FromMatches(f: BookingFilter, dateOf: int -> int, b: Booking)
  {
    f.dateFrom.None? || dateOf(b.start) >= f.dateFrom.value
  }

  /** `date_to` is an inclusive upper bound on the date of the start time. */
  predicate ToMatches(f: BookingFilter, dateOf: int -> int, b: Booking)
  {
    f.dateTo.None? || dateOf(b.start) <= f.dateTo.value
  }

  /** The conjunction of all four criteria. */
  predicate Matches(f: BookingFilter, dateOf: int -> int, b: Booking)
  {
    FacilityMatches(f, b) && StatusMatches(f, b) && FromMatches(f, dateOf, b) && ToMatches(f, dateOf, b)
  }

  function ByFacility(q: seq<Booking>, f: BookingFilter): (r: seq<Booking>)
    ensures r == Seqs.Filter(q, (b: Booking) => FacilityMatches(f, b))
  {
    if f.facility.Some? then
      Seqs.FilterAgree(q, (b: Booking) => b.facility == f.facility.value, (b: Booking) => FacilityMatches(f, b));
      Seqs.Filter(q, (b: Booking) => b.facility == f.facility.value)
    else
      Seqs.FilterAll(q, (b: Booking) => FacilityMatches(f, b));
      q
  }

  function ByStatus(q: seq<Booking>, f: BookingFilter): (r: seq<Booking>)
    ensures r == Seqs.Filter(q, (b: Booking) => StatusMatches(f, b))
  {
    if f.status.Some? then
      Seqs.FilterAgree(q, (b: Booking) => b.status == f.status.value, (b: Booking) => StatusMatches(f, b));
      Seqs.Filter(q, (b: Booking) => b.status == f.status.value)
    else
      Seqs.FilterAll(q, (b: Booking) => StatusMatches(f, b));
      q
  }

  function ByDateFrom(q: seq<Booking>, f: BookingFilter, dateOf: int -> int): (r: seq<Booking>)
    ensures r == Seqs.Filter(q, (b: Booking) => FromMatches(f, dateOf, b))
  {
    if f.dateFrom.Some? then
      Seqs.FilterAgree(q, (b: Booking) => dateOf(b.start) >= f.dateFrom.value,
                       (b: Booking) => FromMatches(f, dateOf, b));
      Seqs.Filter(q, (b: Booking) => dateOf(b.start) >= f.dateFrom.value)
    else
      Seqs.FilterAll(q, (b: Booking) => FromMatches(f, dateOf, b));
      q
  }

  function ByDateTo(q: seq<Booking>, f: BookingFilter, dateOf: int -> int): (r: seq<Booking>)
    ensures r == Seqs.Filter(q, (b: Booking) => ToMatches(f, dateOf, b))
  {
    if f.dateTo.Some? then
      Seqs.FilterAgree(q, (b: Booking) => dateOf(b.start) <= f.dateTo.value,
                       (b: Booking) => ToMatches(f, dateOf, b));
      Seqs.Filter(q, (b: Booking) => dateOf(b.start) <= f.dateTo.value)
    else
      Seqs.FilterAll(q, (b: Booking) => ToMatches(f, dateOf, b));
      q
  }

  /**
   * `BookingFilterForm.filter_queryset`: the given criteria applied one after another.
   * The result is the order-preserving selection of exactly the matching bookings.
   */
  function FilterQueryset(qs: seq<Booking>, f: BookingFilter, dateOf: int -> int): (r: seq<Booking>)
    ensures Seqs.IsSubsequence(r, qs)
    ensures forall i :: 0 <= i < |r| ==> Matches(f, dateOf, r[i])
    ensures forall i :: 0 <= i < |qs| && Matches(f, dateOf, qs[i]) ==> qs[i] in r
  {
    var r := ByDateTo(ByDateFrom(ByStatus(ByFacility(qs, f), f), f, dateOf), f, dateOf);
    FilterQuerysetIsConjunction(qs, f, dateOf);
    Seqs.FilterIsSubsequence(qs, (b: Booking) => Matches(f, dateOf, b));
    r
  }

  /** Applying the four criteria in turn is one filter by their conjunction. */
  lemma FilterQuerysetIsConjunction(qs: seq<Booking>, f: BookingFilter, dateOf: int -> int)
    ensures ByDateTo(ByDateFrom(ByStatus(ByFacility(qs, f), f), f, dateOf), f, dateOf)
            == Seqs.Filter(qs, (b: Booking) => Matches(f, dateOf, b))
  {
    var p1 := (b: Booking) => FacilityMatches(f, b);
    var p2 := (b: Booking) => StatusMatches(f, b);
    var p3 := (b: Booking) => FromMatches(f, dateOf, b);
    var p4 := (b: Booking) => ToMatches(f, dateOf, b);
    var p12 := (b: Booking) => FacilityMatches(f, b) && StatusMatches(f, b);
    var p123 := (b: Booking) => p12(b) && FromMatches(f, dateOf, b);
    var all := (b: Booking) => Matches(f, dateOf, b);
    Seqs.FilterCompose(qs, p1, p2, p12);
    Seqs.FilterCompose(qs, p12, p3, p123);
    Seqs.FilterCompose(qs, p123, p4, all);
  }

  /** With every criterion absent the queryset is returned unchanged. */
  lemma EmptyFilterKeepsAll(qs: seq<Booking>, dateOf: int -> int)
    ensures FilterQueryset(qs, BookingFilter(None, None, None, None), dateOf) == qs
  {
  }

  /** The criteria commute: filtering by status before facility gives the same list. */
  lemma FilterOrderIsIrrelevant(qs: seq<Booking>, f: BookingFilter, dateOf: int -> int)
    ensures ByFacility(ByStatus(qs, f), f) == ByStatus(ByFacility(qs, f), f)
    ensures ByDateFrom(ByDateTo(qs, f, dateOf), f, dateOf) == ByDateTo(ByDateFrom(qs, f, dateOf), f, dateOf)
  {
    Seqs.FilterCommute(qs, (b: Booking) => FacilityMatches(f, b), (b: Booking) => StatusMatches(f, b));
    Seqs.FilterCommute(qs, (b: Booking) => FromMatches(f, dateOf, b), (b: Booking) => ToMatches(f, dateOf, b));
  }

  /** The empty status choice ("All") applies no status filter. */
  lemma AllStatusChoiceKeepsEveryStatus(input: FilterInput, fs: seq<Facility>, b: Booking)
    requires input.status == "" && CleanFilter(input, fs).Some?
    ensures StatusMatches(CleanFilter(input, fs).value, b)
  {
  }

  /** Both date bounds are inclusive: a booking starting on either bound day is kept. */
  lemma DateBoundsAreInclusive(f: BookingFilter, dateOf: int -> int, b: Booking)
    requires f.dateFrom == Some(dateOf(b.start)) && f.dateTo == Some(dateOf(b.start))
    ensures FromMatches(f, dateOf, b) && ToMatches(f, dateOf, b)
  {
  }

  /** With a monotone `dateOf`, a later start never falls out of a `date_from` bound. */
  lemma DateFromIsUpwardClosed(f: BookingFilter, dateOf: int -> int, b: Booking, later: Booking)
    requires forall t, u :: t <= u ==> dateOf(t) <= dateOf(u)
    requires b.start <= later.start && FromMatches(f, dateOf, b)
    ensures FromMatches(f, dateOf, later)
  {
  }

  // ---------------------------------------------------------------------------
  // The booking form

  /** The booking form's cleaned data for the fields `clean` inspects. */
  datatype CleanedFields = CleanedFields(facility: Option<nat>, start: Option<int>, end: Option<int>)

  /**
   * `BookingForm.clean`: once facility, start and end are all present, an unsaved
   * instance (no key, or key 0) is given the requesting user as owner; otherwise the
   * instance is untouched.
   */
  function AssignOwner(fields: CleanedFields, instance: Booking, user: Option<nat>): (r: Booking)
    ensures r.(user := instance.user) == instance
    ensures r.user != instance.user ==> user.Some? && r.user == user.value
    ensures (fields.facility.Some? && fields.start.Some? && fields.end.Some?
             && !HasPk(instance) && user.Some?) ==> r.user == user.value
    ensures (HasPk(instance) || user.None? || fields.facility.None? || fields.start.None?
             || fields.end.None?) ==> r == instance
  {
    if fields.facility.None? || fields.start.None? || fields.end.None? then instance
    else if !HasPk(instance) && user.Some? then instance.(user := user.value)
    else instance
  }
}

=== FILE: booking_model.dfy ===
/**
 * The `Booking` model's rules: validation in `clean`, the availability check it relies
 * on, the `confirm` and `cancel` transitions, and what saving a row demands.
 */
module BookingModel {
  import opened Wrappers
  import opened Domain
  import FacilityModel
  import Seqs

  /** The errors `clean` raises, one per check. */
  datatype ValidationError =
    | InvalidTimeRange
    | StartInPast
    | OverCapacity(capacity: nat)
    | FacilityUnavailable

  /** The database refuses a row that violates the check constraint. */
  datatype SaveError = IntegrityError

  /** The table after a save, and the row as stored (with its key). */
  datatype Saved = Saved(bookings: seq<Booking>, record: Booking)

  /**
   * `other` conflicts with `b`: it is a confirmed booking of the same facility overlapping
   * `b`'s interval and, when `b` has a key, it is not `b`'s own row.
   */
  predicate ConflictsWith(b: Booking, other: Booking)
  {
    && FacilityModel.Blocks(other, b.facility, b.start, b.end)
    && (!HasPk(b) || other.id != b.id)
  }

  /** The update-time query: confirmed overlapping bookings of `facility`, excluding key `pk`. */
  function NoOverlapExcluding(bookings: seq<Booking>, facility: nat, s: int, e: int, pk: nat): (r: bool)
    ensures r <==> forall i :: 0 <= i < |bookings| ==>
                      !(FacilityModel.Blocks(bookings[i], facility, s, e) && bookings[i].id != Some(pk))
    decreases |bookings|
  {
    if |bookings| == 0 then true
    else if FacilityModel.Blocks(bookings[0], facility, s, e) && bookings[0].id != Some(pk) then false
    else
      var rest := NoOverlapExcluding(bookings[1..], facility, s, e, pk);
      assert forall i :: 1 <= i < |bookings| ==> bookings[i] == bookings[1..][i - 1];
      rest
  }

  /**
   * `Booking.is_facility_available`: a new booking asks the facility; a stored one runs
   * the same overlap query with its own row excluded.
   */
  function IsFacilityAvailable(b: Booking, fac: Facility, bookings: seq<Booking>): (r: bool)
    requires fac.id == b.facility
    ensures r <==> forall i :: 0 <= i < |bookings| ==> !ConflictsWith(b, bookings[i])
  {
    if !HasPk(b) then FacilityModel.IsAvailable(fac, bookings, b.start, b.end)
    else NoOverlapExcluding(bookings, b.facility, b.start, b.end, b.id.value)
  }

  /**
   * `Booking.clean`: four checks in a fixed order; the first that fails is the only
   * error reported and the later ones are not evaluated.
   */
  function Clean(b: Booking, fac: Facility, now: int, bookings: seq<Booking>): (r: Outcome<ValidationError>)
    requires fac.id == b.facility
    ensures b.end <= b.start ==> r == Fail(InvalidTimeRange)
    ensures r == Fail(StartInPast) <==> b.start < b.end && !HasPk(b) && b.start < now
    ensures r == Fail(OverCapacity(fac.capacity)) <==>
              b.start < b.end && (HasPk(b) || now <= b.start) && b.people > fac.capacity
    ensures r.Fail? && r.error.OverCapacity? ==> r.error.capacity == fac.capacity
    ensures r == Fail(FacilityUnavailable) <==>
              && b.start < b.end && (HasPk(b) || now <= b.start) && b.people <= fac.capacity
              && exists i :: 0 <= i < |bookings| && ConflictsWith(b, bookings[i])
    ensures r == Pass <==>
              && b.start < b.end && (HasPk(b) || now <= b.start) && b.people <= fac.capacity
              && forall i :: 0 <= i < |bookings| ==> !ConflictsWith(b, bookings[i])
  {
    if b.end <= b.start then Fail(InvalidTimeRange)
    else if !HasPk(b) && b.start < now then Fail(StartInPast)
    else if b.people > fac.capacity then Fail(OverCapacity(fac.capacity))
    else if !IsFacilityAvailable(b, fac, bookings) then Fail(FacilityUnavailable)
    else Pass
  }

  /** `Booking.confirm`: the status becomes confirmed whatever it was; nothing else changes. */
  function Confirm(b: Booking): (r: Booking)
    ensures r.status == Confirmed && SameExceptStatus(r, b)
  {
    b.(status := Confirmed)
  }

  /** `Booking.cancel`: the status becomes cancelled whatever it was; nothing else changes. */
  function Cancel(b: Booking): (r: Booking)
    ensures r.status == Cancelled && SameExceptStatus(r, b)
  {
    b.(status := Cancelled)
  }

  /**
   * `save()`: a row violating the check constraint is refused; an unsaved booking is
   * inserted with a fresh key; a keyed one replaces the row with its key, or is inserted
   * under that key when no row has it (the INSERT after an UPDATE that matched nothing).
   */
  function Save(bookings: seq<Booking>, b: Booking): (r: Result<Saved, SaveError>)
    ensures r.Failure? <==> !EndAfterStart(b)
    ensures r.Success? ==> r.value.record.id.Some? && SameExceptId(r.value.record, b)
    ensures r.Success? && b.id.Some? ==> r.value.record == b
    ensures r.Success? && b.id.None? ==> r.value.bookings == bookings + [r.value.record]
    ensures r.Success? && b.id.Some? && FindBooking(bookings, b.id.value).Some? ==>
              r.value.bookings == bookings[FindBooking(bookings, b.id.value).value := b]
    ensures r.Success? && b.id.Some? && FindBooking(bookings, b.id.value).None? ==>
              r.value.bookings == bookings + [b]
    ensures r.Success? && b.id.None? ==> HasPk(r.value.record)
    ensures r.Success? && StoredTable(bookings) && (b.id.None? || HasPk(b)) ==> StoredTable(r.value.bookings)
  {
    if !EndAfterStart(b) then Failure(IntegrityError)
    else if b.id.None? then
      var row := b.(id := Some(NextBookingId(bookings)));
      Success(Saved(bookings + [row], row))
    else match FindBooking(bookings, b.id.value)
      case Some(i) => Success(Saved(bookings[i := b], b))
      case None => Success(Saved(bookings + [b], b))
  }

  /** `a` and `b` agree on every field except possibly the primary key. */
  predicate SameExceptId(a: Booking, b: Booking)
  {
    a.(id := b.id) == b
  }

  /** Every row has a key, keys are unique, and every row satisfies the check constraint. */
  predicate StoredTable(bookings: seq<Booking>)
  {
    UniqueBookingIds(bookings) && forall i :: 0 <= i < |bookings| ==> IsStoredBooking(bookings[i])
  }

  // ---------------------------------------------------------------------------
  // Properties of validation

  /** A booking that passes `clean` satisfies the check constraint, so its save succeeds. */
  lemma CleanPassMeetsConstraint(b: Booking, fac: Facility, now: int, bookings: seq<Booking>)
    requires fac.id == b.facility
    requires Clean(b, fac, now, bookings) == Pass
    ensures EndAfterStart(b)
    ensures Save(bookings, b).Success?
  {
  }

  /** Starting exactly now is not in the past, and a stored booking is never checked for it. */
  lemma PastCheckBoundary(b: Booking, fac: Facility, now: int, bookings: seq<Booking>)
    requires fac.id == b.facility
    requires HasPk(b) || b.start == now
    ensures Clean(b, fac, now, bookings) != Fail(StartInPast)
  {
  }

  /**
   * Key 0 reads as "not saved": such a booking gets the past check, and the overlap query
   * does not leave its own row out.
   */
  lemma ZeroKeyReadsAsUnsaved(b: Booking, fac: Facility, now: int, bookings: seq<Booking>)
    requires fac.id == b.facility && b.id == Some(0)
    ensures b.start < b.end && b.start < now ==> Clean(b, fac, now, bookings) == Fail(StartInPast)
    ensures IsFacilityAvailable(b, fac, bookings) == FacilityModel.IsAvailable(fac, bookings, b.start, b.end)
  {
  }

  /** A headcount equal to the capacity is accepted by the capacity check. */
  lemma CapacityBoundary(b: Booking, fac: Facility, now: int, bookings: seq<Booking>)
    requires fac.id == b.facility
    requires b.people == fac.capacity
    ensures !Clean(b, fac, now, bookings).Fail? || !Clean(b, fac, now, bookings).error.OverCapacity?
  {
  }

  /** Pending and cancelled bookings never make a booking unavailable, new or stored. */
  lemma OnlyConfirmedBookingsBlock(b: Booking, fac: Facility, bookings: seq<Booking>)
    requires fac.id == b.facility
    ensures IsFacilityAvailable(b, fac, bookings)
            == IsFacilityAvailable(b, fac, Seqs.Filter(bookings, (x: Booking) => x.status == Confirmed))
  {
  }

  /**
   * Re-validating a stored booking never conflicts with its own row: the answer is the
   * same as against the table with that row removed.
   */
  lemma RevalidationIgnoresOwnRow(bookings: seq<Booking>, k: nat, fac: Facility)
    requires UniqueBookingIds(bookings)
    requires k < |bookings| && HasPk(bookings[k]) && fac.id == bookings[k].facility
    ensures IsFacilityAvailable(bookings[k], fac, bookings)
            == IsFacilityAvailable(bookings[k], fac, bookings[..k] + bookings[k + 1..])
  {
    var b := bookings[k];
    var rest := bookings[..k] + bookings[k + 1..];
    assert !ConflictsWith(b, b);
    assert forall j :: 0 <= j < |rest| ==> rest[j] == if j < k then bookings[j] else bookings[j + 1];
    if !IsFacilityAvailable(b, fac, bookings) {
      var i :| 0 <= i < |bookings| && ConflictsWith(b, bookings[i]);
      assert i != k;
      if i < k {
        assert ConflictsWith(b, rest[i]);
      } else {
        assert ConflictsWith(b, rest[i - 1]);
      }
    }
  }

  /** So an unchanged stored booking with no other conflicting row passes `clean`. */
  lemma UnchangedBookingRevalidates(bookings: seq<Booking>, k: nat, fac: Facility, now: int)
    requires StoredTable(bookings)
    requires k < |bookings| && fac.id == bookings[k].facility
    requires bookings[k].people <= fac.capacity
    requires forall j :: 0 <= j < |bookings| && j != k ==>
               !FacilityModel.Blocks(bookings[j], bookings[k].facility, bookings[k].start, bookings[k].end)
    ensures Clean(bookings[k], fac, now, bookings) == Pass
  {
  }

  // ---------------------------------------------------------------------------
  // Properties of the status transitions

  /** Confirm and cancel may follow each other in any order; the last one decides. */
  lemma TransitionsAreUnguarded(b: Booking)
    ensures Cancel(Confirm(b)).status == Cancelled
    ensures Confirm(Cancel(b)).status == Confirmed
    ensures Cancel(Cancel(b)) == Cancel(b)
    ensures Confirm(Confirm(b)) == Confirm(b)
    ensures Cancel(Confirm(b)) == Cancel(b)
  {
  }

  /** Transitions keep a stored row stored: key and check constraint are untouched. */
  lemma TransitionsKeepRowValid(b: Booking)
    requires IsStoredBooking(b)
    ensures IsStoredBooking(Confirm(b)) && IsStoredBooking(Cancel(b))
    ensures Confirm(b).id == b.id && Cancel(b).id == b.id
  {
  }
}

=== FILE: booking_tasks.dfy ===
/** The one rule inside the scheduled reminder task: which bookings get a reminder. */
module BookingTasks {
  import opened Domain
  import Seqs

  /** Confirmed, and starting on the day after `today`. */
  predicate DueForReminder(b: Booking, today: int, dateOf: int -> int)
  {
    b.status == Confirmed && dateOf(b.start) == today + 1
  }

  /** `send_booking_reminders`' query: the confirmed bookings starting tomorrow, in order. */
  function ReminderSelection(bookings: seq<Booking>, today: int, dateOf: int -> int): (r: seq<Booking>)
    ensures Seqs.IsSubsequence(r, bookings)
    ensures forall i :: 0 <= i < |r| ==> r[i].status == Confirmed && dateOf(r[i].start) == today + 1
    ensures forall i :: 0 <= i < |bookings| && DueForReminder(bookings[i], today, dateOf) ==> bookings[i] in r
  {
    Seqs.FilterIsSubsequence(bookings, (b: Booking) => DueForReminder(b, today, dateOf));
    Seqs.Filter(bookings, (b: Booking) => DueForReminder(b, today, dateOf))
  }
}

=== FILE: booking_views.dfy ===
/**
 * The booking views: who may see and act on a booking, how the list is scoped, and
 * what the create, update, cancel, confirm and delete requests do to the store.
 */
module BookingViews {
  import opened Wrappers
  import opened Domain
  import BookingModel
  import BookingForms
  import FacilityModel
  import Seqs

  /** How a request ends when it does not succeed. */
  datatype ViewError =
    | NotFound                                   // 404: no booking with that key
    | Forbidden                                  // 403: the access test refused the user
    | Rejected(error: BookingForms.FormError)    // the form was invalid; nothing saved
    | SaveFailed                                 // the database refused the row

  /** The fields a user submits on the booking form. */
  datatype BookingInput = BookingInput(facility: nat, title: string, description: string,
                                       start: int, end: int, people: nat)

  // ---------------------------------------------------------------------------
  // Access tests

  predicate IsOwner(user: User, b: Booking)
  {
    b.user == user.id
  }

  /** Detail view: staff, or the booking's owner. */
  predicate CanView(user: User, b: Booking)
  {
    user.isStaff || IsOwner(user, b)
  }

  /** Update view: the owner, while the booking is not cancelled; being staff does not help. */
  predicate CanUpdate(user: User, b: Booking)
  {
    IsOwner(user, b) && b.status != Cancelled
  }

  /** Cancel view: the owner of a booking not yet cancelled, or any staff user. */
  predicate CanCancel(user: User, b: Booking)
  {
    (IsOwner(user, b) && b.status != Cancelled) || user.isStaff
  }

  /** Confirm and delete views: staff only. */
  predicate IsStaffOnly(user: User)
  {
    user.isStaff
  }

  /** Viewing: staff see every booking, other users only their own. */
  lemma ViewAccess(user: User, b: Booking)
    ensures user.isStaff ==> CanView(user, b)
    ensures !user.isStaff && !IsOwner(user, b) ==> !CanView(user, b)
    ensures IsOwner(user, b) ==> CanView(user, b)
  {
  }

  /** Updating: only the owner of a booking that is not cancelled; staff rights do not apply. */
  lemma UpdateAccess(user: User, b: Booking)
    ensures !IsOwner(user, b) ==> !CanUpdate(user, b)
    ensures b.status == Cancelled ==> !CanUpdate(user, b)
    ensures IsOwner(user, b) && b.status != Cancelled ==> CanUpdate(user, b)
    ensures CanUpdate(user, b) ==> CanView(user, b) && CanCancel(user, b)
  {
  }

  /** Cancelling: staff always; the owner only while the booking is not already cancelled. */
  lemma CancelAccess(user: User, b: Booking)
    ensures user.isStaff ==> CanCancel(user, b)
    ensures b.status == Cancelled ==> (CanCancel(user, b) <==> user.isStaff)
    ensures !user.isStaff && !IsOwner(user, b) ==> !CanCancel(user, b)
    ensures IsOwner(user, b) && b.status != Cancelled ==> CanCancel(user, b)
  {
  }

  // ---------------------------------------------------------------------------
  // The list

  /** Staff start from every booking; anyone else from their own bookings only. */
  function Scope(bookings: seq<Booking>, user: User): (r: seq<Booking>)
    ensures Seqs.IsSubsequence(r, bookings)
    ensures !user.isStaff ==> forall i :: 0 <= i < |r| ==> r[i].user == user.id
    ensures !user.isStaff ==> forall i :: 0 <= i < |bookings| && bookings[i].user == user.id ==> bookings[i] in r
    ensures user.isStaff ==> r == bookings
  {
    if user.isStaff then
      Seqs.SubsequenceRefl(bookings);
      bookings
    else
      Seqs.FilterIsSubsequence(bookings, (b: Booking) => b.user == user.id);
      Seqs.Filter(bookings, (b: Booking) => b.user == user.id)
  }

  /** The filter to apply: the cleaned filter form, when one was submitted and is valid. */
  function SubmittedFilter(st: Store, input: Option<BookingForms.FilterInput>): (r: Option<BookingForms.BookingFilter>)
    ensures r.Some? <==> input.Some? && BookingForms.CleanFilter(input.value, st.facilities).Some?
    ensures r.Some? ==> r == BookingForms.CleanFilter(input.value, st.facilities)
  {
    if input.Some? then BookingForms.CleanFilter(input.value, st.facilities) else None
  }

  /**
   * `BookingListView.get_queryset`: scope to the user first, then apply the filter form
   * when it was submitted and is valid (`None` stands for an empty query string).
   */
  function ListBookings(st: Store, user: User, input: Option<BookingForms.FilterInput>,
                        dateOf: int -> int): (r: seq<Booking>)
    ensures Seqs.IsSubsequence(r, st.bookings)
    ensures !user.isStaff ==> forall i :: 0 <= i < |r| ==> r[i].user == user.id
    ensures user.isStaff && SubmittedFilter(st, input).None? ==> r == st.bookings
    ensures SubmittedFilter(st, input).Some? ==>
              forall i :: 0 <= i < |r| ==> BookingForms.Matches(SubmittedFilter(st, input).value, dateOf, r[i])
    ensures forall i :: 0 <= i < |st.bookings| && Listable(st, user, input, dateOf, st.bookings[i]) ==>
              st.bookings[i] in r
  {
    var base := Scope(st.bookings, user);
    match SubmittedFilter(st, input)
    case None =>
      ScopeComplete(st.bookings, user);
      base
    case Some(f) =>
      ScopedFilter(st.bookings, user, f, dateOf);
      BookingForms.FilterQueryset(base, f, dateOf)
  }

  /** The filtered scope: drawn from the table, the user's own rows only, all matching. */
  lemma ScopedFilter(bookings: seq<Booking>, user: User, f: BookingForms.BookingFilter, dateOf: int -> int)
    ensures var r := BookingForms.FilterQueryset(Scope(bookings, user), f, dateOf);
            && Seqs.IsSubsequence(r, bookings)
            && (!user.isStaff ==> forall i :: 0 <= i < |r| ==> r[i].user == user.id)
            && (forall i :: 0 <= i < |r| ==> BookingForms.Matches(f, dateOf, r[i]))
            && (forall i :: (0 <= i < |bookings| && (user.isStaff || bookings[i].user == user.id)
                              && BookingForms.Matches(f, dateOf, bookings[i])) ==> bookings[i] in r)
  {
    var base := Scope(bookings, user);
    var r := BookingForms.FilterQueryset(base, f, dateOf);
    Seqs.SubsequenceTransitive(r, base, bookings);
    Seqs.SubsequenceMembers(r, base);
    ScopedFilterComplete(bookings, user, f, dateOf);
  }

  /** Every booking the user may see is in scope. */
  lemma ScopeComplete(bookings: seq<Booking>, user: User)
    ensures forall i :: 0 <= i < |bookings| && (user.isStaff || bookings[i].user == user.id) ==>
              bookings[i] in Scope(bookings, user)
  {
  }

  /** Every booking in scope that matches the filter survives it. */
  lemma ScopedFilterComplete(bookings: seq<Booking>, user: User, f: BookingForms.BookingFilter, dateOf: int -> int)
    ensures forall i :: 0 <= i < |bookings| && (user.isStaff || bookings[i].user == user.id)
                          && BookingForms.Matches(f, dateOf, bookings[i]) ==>
              bookings[i] in BookingForms.FilterQueryset(Scope(bookings, user), f, dateOf)
  {
    var base := Scope(bookings, user);
    forall i | 0 <= i < |bookings| && (user.isStaff || bookings[i].user == user.id)
                 && BookingForms.Matches(f, dateOf, bookings[i])
      ensures bookings[i] in BookingForms.FilterQueryset(base, f, dateOf)
    {
      ScopeComplete(bookings, user);
      var k :| 0 <= k < |base| && base[k] == bookings[i];
    }
  }

  /**
   * A booking the list should show: it is in the user's scope and, when a valid filter
   * was submitted, meets every criterion of it.
   */
  predicate Listable(st: Store, user: User, input: Option<BookingForms.FilterInput>, dateOf: int -> int,
                     b: Booking)
  {
    && (user.isStaff || b.user == user.id)
    && (SubmittedFilter(st, input).Some? ==> BookingForms.Matches(SubmittedFilter(st, input).value, dateOf, b))
  }

  /** A row is listed exactly when it is listable. */
  lemma ListedIffListable(st: Store, user: User, input: Option<BookingForms.FilterInput>, dateOf: int -> int,
                          i: nat)
    requires i < |st.bookings|
    ensures st.bookings[i] in ListBookings(st, user, input, dateOf) <==> Listable(st, user, input, dateOf, st.bookings[i])
  {
    var r := ListBookings(st, user, input, dateOf);
    if st.bookings[i] in r {
      var k :| 0 <= k < |r| && r[k] == st.bookings[i];
    }
  }

  /** A non-staff user never sees another user's booking, whatever filter is submitted. */
  lemma ListNeverLeaks(st: Store, user: User, input: Option<BookingForms.FilterInput>,
                       dateOf: int -> int, other: Booking)
    requires !user.isStaff && other.user != user.id
    ensures other !in ListBookings(st, user, input, dateOf)
  {
  }

  // ---------------------------------------------------------------------------
  // Single-booking views

  /** `BookingDetailView`: 404 when absent, 403 unless staff or owner. */
  function DetailView(st: Store, user: User, pk: nat): (r: Result<Booking, ViewError>)
    ensures r == Failure(NotFound) <==> FindBooking(st.bookings, pk).None?
    ensures r.Success? ==> r.value in st.bookings && r.value.id == Some(pk) && CanView(user, r.value)
    ensures r == Failure(Forbidden) ==> !CanView(user, st.bookings[FindBooking(st.bookings, pk).value])
    ensures r.Success? || r == Failure(NotFound) || r == Failure(Forbidden)
  {
    match FindBooking(st.bookings, pk)
    case None => Failure(NotFound)
    case Some(i) => if CanView(user, st.bookings[i]) then Success(st.bookings[i]) else Failure(Forbidden)
  }

  /** `after` is `before` with only the status of row `i` set to `s`. */
  predicate OnlyStatusChanged(before: Store, after: Store, i: nat, s: Status)
  {
    && after.facilities == before.facilities
    && |after.bookings| == |before.bookings|
    && i < |before.bookings|
    && after.bookings[i].status == s
    && SameExceptStatus(after.bookings[i], before.bookings[i])
    && forall j :: 0 <= j < |before.bookings| && j != i ==> after.bookings[j] == before.bookings[j]
  }

  /** A status change keeps every guarantee of the store. */
  lemma StatusChangeKeepsStoreValid(before: Store, after: Store, i: nat, s: Status)
    requires ValidStore(before) && OnlyStatusChanged(before, after, i, s)
    ensures ValidStore(after)
  {
  }

  /** Saves a stored row whose status was changed. */
  function SaveStatus(st: Store, i: nat, b: Booking): (r: Result<Store, ViewError>)
    requires i < |st.bookings| && st.bookings[i].id.Some? && SameExceptStatus(b, st.bookings[i])
    requires FindBooking(st.bookings, st.bookings[i].id.value) == Some(i)
    ensures r.Success? ==> OnlyStatusChanged(st, r.value, i, b.status)
    ensures r.Failure? ==> r.error == SaveFailed && !EndAfterStart(st.bookings[i])
  {
    match BookingModel.Save(st.bookings, b)
    case Success(saved) => Success(Store(st.facilities, saved.bookings))
    case Failure(_) => Failure(SaveFailed)
  }

  /** In a store with unique keys, the row found for key `pk` is the only one with that key. */
  lemma FoundRowIsFirst(bs: seq<Booking>, i: nat)
    requires UniqueBookingIds(bs) && i < |bs| && bs[i].id.Some?
    ensures FindBooking(bs, bs[i].id.value) == Some(i)
  {
  }

  /**
   * `BookingCancelView`: 404 when absent, 403 unless the cancel test passes; otherwise
   * the booking is cancelled, whatever its status, and nothing else changes.
   */
  function CancelView(st: Store, user: User, pk: nat): (r: Result<Store, ViewError>)
    requires UniqueBookingIds(st.bookings)
    ensures r == Failure(NotFound) <==> FindBooking(st.bookings, pk).None?
    ensures r == Failure(Forbidden) <==>
              FindBooking(st.bookings, pk).Some? && !CanCancel(user, st.bookings[FindBooking(st.bookings, pk).value])
    ensures r.Success? ==> OnlyStatusChanged(st, r.value, FindBooking(st.bookings, pk).value, Cancelled)
    ensures ValidStore(st) ==> r != Failure(SaveFailed)
    ensures ValidStore(st) ==>
              (r.Success? <==> FindBooking(st.bookings, pk).Some?
                               && CanCancel(user, st.bookings[FindBooking(st.bookings, pk).value]))
    ensures r.Success? && ValidStore(st) ==> ValidStore(r.value)
  {
    match FindBooking(st.bookings, pk)
    case None => Failure(NotFound)
    case Some(i) =>
      if !CanCancel(user, st.bookings[i]) then Failure(Forbidden)
      else
        FoundRowIsFirst(st.bookings, i);
        SaveStatus(st, i, BookingModel.Cancel(st.bookings[i]))
  }

  /**
   * `BookingConfirmView`: 403 unless staff (checked before the lookup), then 404 when
   * absent; otherwise the booking is confirmed whatever its status, without re-running
   * the overlap check, and nothing else changes.
   */
  function ConfirmView(st: Store, user: User, pk: nat): (r: Result<Store, ViewError>)
    requires UniqueBookingIds(st.bookings)
    ensures r == Failure(Forbidden) <==> !user.isStaff
    ensures r == Failure(NotFound) <==> user.isStaff && FindBooking(st.bookings, pk).None?
    ensures r.Success? ==> OnlyStatusChanged(st, r.value, FindBooking(st.bookings, pk).value, Confirmed)
    ensures ValidStore(st) ==> r != Failure(SaveFailed)
    ensures ValidStore(st) ==> (r.Success? <==> user.isStaff && FindBooking(st.bookings, pk).Some?)
    ensures r.Success? && ValidStore(st) ==> ValidStore(r.value)
  {
    if !IsStaffOnly(user) then Failure(Forbidden)
    else match FindBooking(st.bookings, pk)
      case None => Failure(NotFound)
      case Some(i) =>
        FoundRowIsFirst(st.bookings, i);
        SaveStatus(st, i, BookingModel.Confirm(st.bookings[i]))
  }

  /** `BookingDeleteView`: 403 unless staff, then 404 when absent; otherwise the row is removed. */
  function DeleteView(st: Store, user: User, pk: nat): (r: Result<Store, ViewError>)
    ensures r == Failure(Forbidden) <==> !user.isStaff
    ensures r == Failure(NotFound) <==> user.isStaff && FindBooking(st.bookings, pk).None?
    ensures r.Success? <==> user.isStaff && FindBooking(st.bookings, pk).Some?
    ensures r.Success? ==> r.value.facilities == st.facilities && |r.value.bookings| + 1 == |st.bookings|
    ensures r.Success? ==> r.value.bookings == RemoveAt(st.bookings, FindBooking(st.bookings, pk).value)
    ensures r.Success? ==> forall i :: 0 <= i < |r.value.bookings| ==> r.value.bookings[i] in st.bookings
    ensures r.Success? && UniqueBookingIds(st.bookings) ==>
              forall i :: 0 <= i < |r.value.bookings| ==> r.value.bookings[i].id != Some(pk)
    ensures r.Success? && ValidStore(st) ==> ValidStore(r.value)
  {
    if !IsStaffOnly(user) then Failure(Forbidden)
    else match FindBooking(st.bookings, pk)
      case None => Failure(NotFound)
      case Some(i) =>
        RemovingRowKeepsStoreValid(st, i);
        Success(Store(st.facilities, RemoveAt(st.bookings, i)))
  }

  /** The table with row `i` deleted; later rows move up by one. */
  function RemoveAt(bs: seq<Booking>, i: nat): (r: seq<Booking>)
    requires i < |bs|
    ensures |r| + 1 == |bs|
    ensures forall j :: 0 <= j < |r| ==> r[j] == if j < i then bs[j] else bs[j + 1]
  {
    bs[..i] + bs[i + 1..]
  }

  /** Deleting a row keeps the store valid and, with unique keys, removes that key. */
  lemma RemovingRowKeepsStoreValid(st: Store, i: nat)
    requires i < |st.bookings|
    ensures forall j :: 0 <= j < |RemoveAt(st.bookings, i)| ==> RemoveAt(st.bookings, i)[j] in st.bookings
    ensures UniqueBookingIds(st.bookings) ==>
              forall j :: 0 <= j < |RemoveAt(st.bookings, i)| ==> RemoveAt(st.bookings, i)[j].id != st.bookings[i].id
    ensures ValidStore(st) ==> ValidStore(Store(st.facilities, RemoveAt(st.bookings, i)))
  {
    var rest := RemoveAt(st.bookings, i);
    if ValidStore(st) {
      forall a, b | 0 <= a < b < |rest|
        ensures rest[a].id != rest[b].id
      {
        var a' := if a < i then a else a + 1;
        var b' := if b < i then b else b + 1;
        assert rest[a] == st.bookings[a'] && rest[b] == st.bookings[b'] && a' < b';
      }
    }
  }

  /**
   * `BookingCreateView`: the facility must be one of the active choices, the booking is
   * owned by the requesting user and validated as new; if valid it is stored as pending.
   */
  function CreateView(st: Store, user: User, input: BookingInput, now: int): (r: Result<Store, ViewError>)
    ensures r == Failure(Rejected(BookingForms.InvalidChoice)) <==>
              BookingForms.ChooseFacility(st.facilities, input.facility).None?
    ensures r.Success? ==>
              && r.value.facilities == st.facilities
              && |r.value.bookings| == |st.bookings| + 1
              && r.value.bookings[..|st.bookings|] == st.bookings
              && var b := r.value.bookings[|st.bookings|];
                 && b.user == user.id && b.status == Pending && b.facility == input.facility
                 && b.title == input.title && b.description == input.description
                 && b.start == input.start && b.end == input.end && b.people == input.people
                 && b.id.Some? && forall j :: 0 <= j < |st.bookings| ==> st.bookings[j].id != b.id
    ensures r.Success? <==>
              BookingForms.ChooseFacility(st.facilities, input.facility).Some?
              && BookingModel.Clean(Draft(user, input), BookingForms.ChooseFacility(st.facilities, input.facility).value,
                                    now, st.bookings) == Pass
    ensures BookingForms.ChooseFacility(st.facilities, input.facility).Some?
            && BookingModel.Clean(Draft(user, input), BookingForms.ChooseFacility(st.facilities, input.facility).value,
                                  now, st.bookings).Fail? ==>
              r == Failure(Rejected(BookingForms.ModelError(
                     BookingModel.Clean(Draft(user, input), BookingForms.ChooseFacility(st.facilities, input.facility).value,
                                        now, st.bookings).error)))
    ensures r != Failure(SaveFailed)
    ensures r.Success? && ValidStore(st) ==> ValidStore(r.value)
  {
    match BookingForms.ChooseFacility(st.facilities, input.facility)
    case None => Failure(Rejected(BookingForms.InvalidChoice))
    case Some(fac) =>
      var draft := Draft(user, input);
      match BookingModel.Clean(draft, fac, now, st.bookings)
      case Fail(e) => Failure(Rejected(BookingForms.ModelError(e)))
      case Pass =>
        match BookingModel.Save(st.bookings, draft)
        case Failure(_) => Failure(SaveFailed)
        case Success(saved) =>
          assert fac.id in FacilityIds(st.facilities);
          Success(Store(st.facilities, saved.bookings))
  }

  /** The unsaved booking the create form builds, owned by the requesting user. */
  function Draft(user: User, input: BookingInput): (b: Booking)
    ensures b.id.None? && b.user == user.id && b.status == Pending
  {
    NewBooking(user.id, input.facility, input.title, input.description, input.start, input.end, input.people)
  }

  /**
   * The form's `clean` makes the requesting user the owner of the booking being created,
   * whatever owner the unsaved instance carried before.
   */
  lemma CreatedBookingIsOwnedByRequester(user: User, input: BookingInput, other: nat)
    ensures BookingForms.AssignOwner(
              BookingForms.CleanedFields(Some(input.facility), Some(input.start), Some(input.end)),
              Draft(user, input).(user := other), Some(user.id)).user == user.id
  {
  }

  /**
   * `BookingUpdateView`: 404 when absent, 403 unless the update test passes; the new
   * field values are validated as an existing booking (its own row excluded from the
   * overlap check, no past check) and replace the row, keeping owner and status.
   */
  function UpdateView(st: Store, user: User, pk: nat, input: BookingInput, now: int): (r: Result<Store, ViewError>)
    requires UniqueBookingIds(st.bookings)
    ensures r == Failure(NotFound) <==> FindBooking(st.bookings, pk).None?
    ensures r == Failure(Forbidden) <==>
              FindBooking(st.bookings, pk).Some? && !CanUpdate(user, st.bookings[FindBooking(st.bookings, pk).value])
    ensures pk != 0 ==> r != Failure(Rejected(BookingForms.ModelError(BookingModel.StartInPast)))
    ensures r.Success? <==>
              && FindBooking(st.bookings, pk).Some?
              && CanUpdate(user, st.bookings[FindBooking(st.bookings, pk).value])
              && BookingForms.ChooseFacility(st.facilities, input.facility).Some?
              && BookingModel.Clean(Revise(st.bookings[FindBooking(st.bookings, pk).value], input),
                                    BookingForms.ChooseFacility(st.facilities, input.facility).value,
                                    now, st.bookings) == Pass
    ensures FindBooking(st.bookings, pk).Some? && CanUpdate(user, st.bookings[FindBooking(st.bookings, pk).value])
            && BookingForms.ChooseFacility(st.facilities, input.facility).None? ==>
              r == Failure(Rejected(BookingForms.InvalidChoice))
    ensures FindBooking(st.bookings, pk).Some? && CanUpdate(user, st.bookings[FindBooking(st.bookings, pk).value])
            && BookingForms.ChooseFacility(st.facilities, input.facility).Some?
            && BookingModel.Clean(Revise(st.bookings[FindBooking(st.bookings, pk).value], input),
                                  BookingForms.ChooseFacility(st.facilities, input.facility).value,
                                  now, st.bookings).Fail? ==>
              r == Failure(Rejected(BookingForms.ModelError(
                     BookingModel.Clean(Revise(st.bookings[FindBooking(st.bookings, pk).value], input),
                                        BookingForms.ChooseFacility(st.facilities, input.facility).value,
                                        now, st.bookings).error)))
    ensures r != Failure(SaveFailed)
    ensures r.Success? ==>
              var i := FindBooking(st.bookings, pk).value;
              && r.value.facilities == st.facilities
              && |r.value.bookings| == |st.bookings|
              && r.value.bookings[i] == Revise(st.bookings[i], input)
              && forall j :: 0 <= j < |st.bookings| && j != i ==> r.value.bookings[j] == st.bookings[j]
    ensures r.Success? && ValidStore(st) ==> ValidStore(r.value)
  {
    match FindBooking(st.bookings, pk)
    case None => Failure(NotFound)
    case Some(i) =>
      if !CanUpdate(user, st.bookings[i]) then Failure(Forbidden)
      else match BookingForms.ChooseFacility(st.facilities, input.facility)
        case None => Failure(Rejected(BookingForms.InvalidChoice))
        case Some(fac) =>
          var revised := Revise(st.bookings[i], input);
          match BookingModel.Clean(revised, fac, now, st.bookings)
          case Fail(e) => Failure(Rejected(BookingForms.ModelError(e)))
          case Pass =>
            match BookingModel.Save(st.bookings, revised)
            case Failure(_) => Failure(SaveFailed)
            case Success(saved) =>
              FoundRowIsFirst(st.bookings, i);
              assert fac.id in FacilityIds(st.facilities);
              ReplacingRowKeepsStoreValid(st, i, revised);
              Success(Store(st.facilities, saved.bookings))
  }

  /** Replacing a row by one with the same key, a valid time range and a known facility. */
  lemma ReplacingRowKeepsStoreValid(st: Store, i: nat, b: Booking)
    requires i < |st.bookings| && b.id == st.bookings[i].id
    requires EndAfterStart(b) && b.facility in FacilityIds(st.facilities)
    ensures ValidStore(st) ==> ValidStore(Store(st.facilities, st.bookings[i := b]))
  {
    var bs := st.bookings[i := b];
    assert forall j :: 0 <= j < |bs| ==> bs[j].id == st.bookings[j].id;
  }

  /** The stored booking with the form's fields applied; key, owner and status are kept. */
  function Revise(b: Booking, input: BookingInput): (r: Booking)
    ensures r.id == b.id && r.user == b.user && r.status == b.status
  {
    b.(facility := input.facility, title := input.title, description := input.description,
       start := input.start, end := input.end, people := input.people)
  }

  /**
   * Re-submitting a booking's own slot succeeds: its own row never blocks it, so with no
   * other confirmed booking in the way the update passes `clean` whatever the time.
   */
  lemma UpdateKeepsOwnSlot(st: Store, user: User, pk: nat, input: BookingInput, now: int)
    requires ValidStore(st)
    requires FindBooking(st.bookings, pk).Some?
    requires var b := st.bookings[FindBooking(st.bookings, pk).value];
             && CanUpdate(user, b)
             && input.facility == b.facility && input.start == b.start && input.end == b.end
    requires BookingForms.ChooseFacility(st.facilities, input.facility).Some?
    requires input.people <= BookingForms.ChooseFacility(st.facilities, input.facility).value.capacity
    requires forall j :: 0 <= j < |st.bookings| && j != FindBooking(st.bookings, pk).value ==>
               !FacilityModel.Blocks(st.bookings[j], input.facility, input.start, input.end)
    ensures UpdateView(st, user, pk, input, now).Success?
  {
    var i := FindBooking(st.bookings, pk).value;
    var revised := Revise(st.bookings[i], input);
    assert IsStoredBooking(st.bookings[i]);
    forall j | 0 <= j < |st.bookings|
      ensures !BookingModel.ConflictsWith(revised, st.bookings[j])
    {
      if j == i {
        assert st.bookings[j].id == revised.id;
      }
    }
  }

  /**
   * Example: with booking A confirmed for 10:00-12:00, a new booking B of the
   * same facility for 11:00-13:00 is rejected as unavailable (times in minutes).
   */
  lemma OverlapScenario(fac: Facility, a: Booking, user2: User, now: int)
    requires fac.isActive && fac.capacity == 10
    requires a.id == Some(1) && a.facility == fac.id && a.status == Confirmed
    requires a.start == 600 && a.end == 720 && now <= 660
    ensures CreateView(Store([fac], [a]), user2, BookingInput(fac.id, "B", "", 660, 780, 5), now)
            == Failure(Rejected(BookingForms.ModelError(BookingModel.FacilityUnavailable)))
  {
  }

  /** No two confirmed bookings of the same facility overlap. */
  predicate NoDoubleBooking(bookings: seq<Booking>)
  {
    forall i, j :: 0 <= i < |bookings| && 0 <= j < |bookings| && i != j
      && bookings[i].status == Confirmed && bookings[j].status == Confirmed
      && bookings[i].facility == bookings[j].facility
      ==> !FacilityModel.Overlaps(bookings[i], bookings[j].start, bookings[j].end)
  }

  /**
   * Confirmation does not re-run the overlap check: confirming a pending booking that
   * overlaps a confirmed one of the same facility produces a double booking.
   */
  lemma ConfirmCanDoubleBook(fac: Facility, staff: User)
    requires staff.isStaff
    ensures var before := Store([fac], [
                Booking(Some(1), 7, fac.id, "A", "", 600, 720, Confirmed, 1),
                Booking(Some(2), 8, fac.id, "B", "", 660, 780, Pending, 1)]);
            && NoDoubleBooking(before.bookings)
            && ConfirmView(before, staff, 2).Success?
            && !NoDoubleBooking(ConfirmView(before, staff, 2).value.bookings)
  {
    var before := Store([fac], [
                Booking(Some(1), 7, fac.id, "A", "", 600, 720, Confirmed, 1),
                Booking(Some(2), 8, fac.id, "B", "", 660, 780, Pending, 1)]);
    assert FindBooking(before.bookings, 2) == Some(1);
    var after := ConfirmView(before, staff, 2).value;
    assert after.bookings[1].status == Confirmed && after.bookings[0] == before.bookings[0];
  }
}

=== FILE: domain.dfy ===
/**
 * The entities of the booking application: facilities, bookings, the users acting on
 * them, and the persisted store the rules run against.
 */
module Domain {
  import opened Wrappers

  /** The three values of a booking's `status` column. */
  datatype Status = Pending | Confirmed | Cancelled

  /**
   * A bookable facility. `capacity` is a non-negative integer (zero is admitted);
   * opening hours, description and image carry no rule and are left out.
   */
  datatype Facility = Facility(id: nat, name: string, location: string, capacity: nat, isActive: bool)

  /**
   * A reservation. `id` is the primary key, `None` until the booking is first saved.
   * Times are integer instants; `user` and `facility` are foreign keys.
   */
  datatype Booking = Booking(
    id: Option<nat>,
    user: nat,
    facility: nat,
    title: string,
    description: string,
    start: int,
    end: int,
    status: Status,
    people: nat)

  /** An authenticated user as the views see it. */
  datatype User = User(id: nat, isStaff: bool)

  /** A snapshot of the two tables, each in queryset order. */
  datatype Store = Store(facilities: seq<Facility>, bookings: seq<Booking>)

  /** Status a booking receives when none is given. */
  const DefaultStatus: Status := Pending

  /** An unsaved booking as a form builds it: no primary key and the default status. */
  function NewBooking(user: nat, facility: nat, title: string, description: string,
                      start: int, end: int, people: nat): (b: Booking)
    ensures b.id.None? && b.status == Pending
    ensures b.user == user && b.facility == facility && b.start == start && b.end == end
    ensures b.people == people && b.title == title && b.description == description
  {
    Booking(None, user, facility, title, description, start, end, DefaultStatus, people)
  }

  /** A facility as created without an explicit active flag: it is active. */
  function NewFacility(id: nat, name: string, location: string, capacity: nat): (f: Facility)
    ensures f.isActive
    ensures f.id == id && f.name == name && f.location == location && f.capacity == capacity
  {
    Facility(id, name, location, capacity, true)
  }

  /** `a` and `b` agree on every field except possibly `status`. */
  predicate SameExceptStatus(a: Booking, b: Booking)
  {
    a.(status := b.status) == b
  }

  /** The database's `end_time_after_start_time` check constraint. */
  predicate EndAfterStart(b: Booking)
  {
    b.end > b.start
  }

  /** No two bookings share a primary key. */
  predicate UniqueBookingIds(bs: seq<Booking>)
  {
    forall i, j :: 0 <= i < j < |bs| ==> bs[i].id != bs[j].id
  }

  /** No two facilities share a primary key. */
  predicate UniqueFacilityIds(fs: seq<Facility>)
  {
    forall i, j :: 0 <= i < j < |fs| ==> fs[i].id != fs[j].id
  }

  function FacilityIds(fs: seq<Facility>): set<nat>
  {
    set i | 0 <= i < |fs| :: fs[i].id
  }

  /**
   * The truth value of `self.pk`: a booking without a key, or with key 0, reads as not
   * yet saved.
   */
  predicate HasPk(b: Booking)
  {
    b.id.Some? && b.id.value != 0
  }

  /**
   * A row of the bookings table: it has a key handed out by the auto-increment column
   * (which starts at 1) and satisfies the check constraint.
   */
  predicate IsStoredBooking(b: Booking)
  {
    HasPk(b) && EndAfterStart(b)
  }

  /** What the database guarantees of every snapshot: keys, constraint, foreign keys. */
  predicate ValidStore(st: Store)
  {
    && UniqueFacilityIds(st.facilities)
    && UniqueBookingIds(st.bookings)
    && (forall i :: 0 <= i < |st.bookings| ==> IsStoredBooking(st.bookings[i]))
    && (forall i :: 0 <= i < |st.bookings| ==> st.bookings[i].facility in FacilityIds(st.facilities))
  }

  /** Position of the booking with primary key `pk`, if any (`get_object_or_404`). */
  function FindBooking(bs: seq<Booking>, pk: nat): (r: Option<nat>)
    ensures r.Some? ==> r.value < |bs| && bs[r.value].id == Some(pk)
    ensures r.None? <==> forall j :: 0 <= j < |bs| ==> bs[j].id != Some(pk)
    decreases |bs|
  {
    if |bs| == 0 then None
    else if bs[0].id == Some(pk) then Some(0)
    else match FindBooking(bs[1..], pk)
      case None => None
      case Some(i) => Some(i + 1)
  }

  /** Position of the facility with key `id`, if any. */
  function FacilityIndex(fs: seq<Facility>, id: nat): (r: Option<nat>)
    ensures r.Some? ==> r.value < |fs| && fs[r.value].id == id
    ensures r.Some? ==> forall j :: 0 <= j < r.value ==> fs[j].id != id
    ensures r.None? <==> forall j :: 0 <= j < |fs| ==> fs[j].id != id
    decreases |fs|
  {
    if |fs| == 0 then None
    else if fs[0].id == id then Some(0)
    else match FacilityIndex(fs[1..], id)
      case None => None
      case Some(i) => Some(i + 1)
  }

  /** The facility with primary key `id`, if any: the row `FacilityIndex` finds. */
  function FindFacility(fs: seq<Facility>, id: nat): (r: Option<Facility>)
    ensures r.Some? ==> r.value in fs && r.value.id == id
    ensures r.None? <==> id !in FacilityIds(fs)
  {
    match FacilityIndex(fs, id)
    case None => None
    case Some(i) => Some(fs[i])
  }

  /** A primary key larger than every key in use, as an auto-increment column hands out. */
  function NextBookingId(bs: seq<Booking>): (r: nat)
    ensures r >= 1
    ensures forall i :: 0 <= i < |bs| && bs[i].id.Some? ==> bs[i].id.value < r
    decreases |bs|
  {
    if |bs| == 0 then 1
    else
      var rest := NextBookingId(bs[1..]);
      var here := if bs[0].id.Some? then bs[0].id.value + 1 else 0;
      if here > rest then here else rest
  }

  /** A facility key larger than every key in use. */
  function NextFacilityId(fs: seq<Facility>): (r: nat)
    ensures forall i :: 0 <= i < |fs| ==> fs[i].id < r
    decreases |fs|
  {
    if |fs| == 0 then 1
    else
      var rest := NextFacilityId(fs[1..]);
      if fs[0].id + 1 > rest then fs[0].id + 1 else rest
  }
}

=== FILE: facility_forms.dfy ===
/** The facility forms: the list filter and the create/update form's field validation. */
module FacilityForms {
  import opened Wrappers
  import opened Domain
  import Seqs
  import Text

  // ---------------------------------------------------------------------------
  // The filter form

  /** The filter form's submitted values; an empty text field is `""`. */
  datatype FilterInput = FilterInput(name: string, location: string, minCapacity: Option<int>)

  /** `min_capacity` has a lower bound of 1. */
  const MinCapacityFloor: int := 1

  /** `is_valid()` of the filter form: invalid exactly when `min_capacity` is below 1. */
  function CleanFilter(input: FilterInput): (r: Option<FilterInput>)
    ensures r.Some? <==> (input.minCapacity.Some? ==> input.minCapacity.value >= MinCapacityFloor)
    ensures r.Some? ==> r.value == input
  {
    if input.minCapacity.Some? && input.minCapacity.value < MinCapacityFloor then None
    else Some(input)
  }

  predicate NameMatches(f: FilterInput, x: Facility)
  {
    f.name == "" || Text.IContains(x.name, f.name)
  }

  predicate LocationMatches(f: FilterInput, x: Facility)
  {
    f.location == "" || Text.IContains(x.location, f.location)
  }

  predicate CapacityMatches(f: FilterInput, x: Facility)
  {
    f.minCapacity.None? || f.minCapacity.value == 0 || x.capacity >= f.minCapacity.value
  }

  /** The conjunction of the three criteria. */
  predicate Matches(f: FilterInput, x: Facility)
  {
    NameMatches(f, x) && LocationMatches(f, x) && CapacityMatches(f, x)
  }

  function ByName(q: seq<Facility>, f: FilterInput): (r: seq<Facility>)
    ensures r == Seqs.Filter(q, (x: Facility) => NameMatches(f, x))
  {
    if f.name != "" then
      Seqs.FilterAgree(q, (x: Facility) => Text.IContains(x.name, f.name), (x: Facility) => NameMatches(f, x));
      Seqs.Filter(q, (x: Facility) => Text.IContains(x.name, f.name))
    else
      Seqs.FilterAll(q, (x: Facility) => NameMatches(f, x));
      q
  }

  function ByLocation(q: seq<Facility>, f: FilterInput): (r: seq<Facility>)
    ensures r == Seqs.Filter(q, (x: Facility) => LocationMatches(f, x))
  {
    if f.location != "" then
      Seqs.FilterAgree(q, (x: Facility) => Text.IContains(x.location, f.location),
                       (x: Facility) => LocationMatches(f, x));
      Seqs.Filter(q, (x: Facility) => Text.IContains(x.location, f.location))
    else
      Seqs.FilterAll(q, (x: Facility) => LocationMatches(f, x));
      q
  }

  /** `if min_capacity:` skips the filter for an absent value and for 0. */
  function ByCapacity(q: seq<Facility>, f: FilterInput): (r: seq<Facility>)
    ensures r == Seqs.Filter(q, (x: Facility) => CapacityMatches(f, x))
  {
    if f.minCapacity.Some? && f.minCapacity.value != 0 then
      Seqs.FilterAgree(q, (x: Facility) => x.capacity >= f.minCapacity.value,
                       (x: Facility) => CapacityMatches(f, x));
      Seqs.Filter(q, (x: Facility) => x.capacity >= f.minCapacity.value)
    else
      Seqs.FilterAll(q, (x: Facility) => CapacityMatches(f, x));
      q
  }

  /**
   * `FacilityFilterForm.filter_queryset`: the given criteria applied one after another.
   * The result is the order-preserving selection of exactly the matching facilities.
   */
  function FilterQueryset(qs: seq<Facility>, f: FilterInput): (r: seq<Facility>)
    ensures Seqs.IsSubsequence(r, qs)
    ensures forall i :: 0 <= i < |r| ==> Matches(f, r[i])
    ensures forall i :: 0 <= i < |qs| && Matches(f, qs[i]) ==> qs[i] in r
  {
    var r := ByCapacity(ByLocation(ByName(qs, f), f), f);
    var p12 := (x: Facility) => NameMatches(f, x) && LocationMatches(f, x);
    var all := (x: Facility) => Matches(f, x);
    Seqs.FilterCompose(qs, (x: Facility) => NameMatches(f, x), (x: Facility) => LocationMatches(f, x), p12);
    Seqs.FilterCompose(qs, p12, (x: Facility) => CapacityMatches(f, x), all);
    Seqs.FilterIsSubsequence(qs, all);
    r
  }

  /** Empty text fields and an absent minimum leave the queryset unchanged. */
  lemma EmptyFilterKeepsAll(qs: seq<Facility>)
    ensures FilterQueryset(qs, FilterInput("", "", None)) == qs
  {
  }

  /** On a valid form, a given minimum keeps exactly the facilities at least that large. */
  lemma MinCapacityIsLowerBound(input: FilterInput, x: Facility)
    requires CleanFilter(input).Some? && input.minCapacity.Some?
    ensures input.minCapacity.value >= 1
    ensures CapacityMatches(input, x) <==> x.capacity >= input.minCapacity.value
  {
  }

  /** The name criterion ignores case on both sides. */
  lemma NameMatchIgnoresCase(f: FilterInput, x: Facility)
    ensures NameMatches(f, x) == NameMatches(f, x.(name := Text.Lower(x.name)))
    ensures NameMatches(f, x) == NameMatches(f.(name := Text.Lower(f.name)), x)
  {
    Text.IContainsIgnoresCase(x.name, f.name);
  }

  // ---------------------------------------------------------------------------
  // The create/update form

  /** The fields of `FacilityForm` that carry a validation rule. */
  datatype FacilityField = NameField | LocationField | CapacityField

  /** The form's submitted values; `capacity` is whatever integer was typed. */
  datatype FacilityInput = FacilityInput(name: string, location: string, capacity: int, isActive: bool)

  const NameMaxLength: nat := 100
  const LocationMaxLength: nat := 200

  /** The set of fields whose value is refused; every field is checked. */
  function FieldErrors(input: FacilityInput): (r: set<FacilityField>)
    ensures NameField in r <==> input.name == "" || |input.name| > NameMaxLength
    ensures LocationField in r <==> input.location == "" || |input.location| > LocationMaxLength
    ensures CapacityField in r <==> input.capacity < 0
  {
    (if input.name == "" || |input.name| > NameMaxLength then {NameField} else {})
    + (if input.location == "" || |input.location| > LocationMaxLength then {LocationField} else {})
    + (if input.capacity < 0 then {CapacityField} else {})
  }

  /**
   * `FacilityForm` validation: name and location are required and length-bounded and the
   * capacity is a non-negative integer; a valid form yields the facility to store.
   */
  function ValidateFacility(input: FacilityInput, id: nat): (r: Result<Facility, set<FacilityField>>)
    ensures r.Failure? ==> r.error == FieldErrors(input) && r.error != {}
    ensures r.Success? <==> FieldErrors(input) == {}
    ensures r.Success? ==> && r.value.id == id && r.value.name == input.name
                           && r.value.location == input.location
                           && r.value.capacity == input.capacity && r.value.isActive == input.isActive
  {
    var errors := FieldErrors(input);
    if errors != {} then Failure(errors)
    else Success(Facility(id, input.name, input.location, input.capacity, input.isActive))
  }

  /** An empty name or a negative capacity is refused; a capacity of 0 is accepted. */
  lemma FacilityFormExamples(id: nat)
    ensures ValidateFacility(FacilityInput("", "Test Location", 10, true), id).Failure?
    ensures ValidateFacility(FacilityInput("Test Facility", "Test Location", -1, true), id).Failure?
    ensures ValidateFacility(FacilityInput("Test Facility", "Test Location", 0, true), id).Success?
  {
  }
}

=== FILE: facility_model.dfy ===
/** The facility's availability query and its placeholder slot listing. */
module FacilityModel {
  import opened Domain
  import Seqs

  /**
   * `Facility.objects.filter(is_active=True)`: the facilities offered by the booking
   * forms and shown by the facility list, in table order.
   */
  function ActiveFacilities(fs: seq<Facility>): (r: seq<Facility>)
    ensures forall i :: 0 <= i < |r| ==> r[i].isActive && r[i] in fs
    ensures forall i :: 0 <= i < |fs| && fs[i].isActive ==> fs[i] in r
    ensures Seqs.IsSubsequence(r, fs)
  {
    Seqs.FilterIsSubsequence(fs, (f: Facility) => f.isActive);
    Seqs.Filter(fs, (f: Facility) => f.isActive)
  }

  /** Half-open intervals `[s1, e1)` and `[s2, e2)` share an instant. */
  predicate IntervalsOverlap(s1: int, e1: int, s2: int, e2: int)
  {
    s1 < e2 && s2 < e1
  }

  /** The lookups `start_time__lt=e, end_time__gt=s` applied to booking `b`. */
  predicate Overlaps(b: Booking, s: int, e: int)
  {
    b.start < e && b.end > s
  }

  /** `b` is a confirmed booking of facility `facility` overlapping `[s, e)`. */
  predicate Blocks(b: Booking, facility: nat, s: int, e: int)
  {
    b.facility == facility && b.status == Confirmed && Overlaps(b, s, e)
  }

  /** The bookings that can ever block facility `facility`: its confirmed ones. */
  predicate Relevant(facility: nat, b: Booking)
  {
    b.facility == facility && b.status == Confirmed
  }

  /**
   * `Facility.is_available`: no confirmed booking of this facility overlaps `[s, e)`.
   * Computed by scanning the bookings table the way the `exists()` query does.
   */
  function IsAvailable(f: Facility, bookings: seq<Booking>, s: int, e: int): (r: bool)
    ensures r <==> forall i :: 0 <= i < |bookings| ==> !Blocks(bookings[i], f.id, s, e)
    decreases |bookings|
  {
    if |bookings| == 0 then true
    else if Blocks(bookings[0], f.id, s, e) then false
    else
      var rest := IsAvailable(f, bookings[1..], s, e);
      assert forall i :: 1 <= i < |bookings| ==> bookings[i] == bookings[1..][i - 1];
      rest
  }

  /** `Facility.get_available_slots`: a placeholder that lists no slot for any date. */
  function GetAvailableSlots(f: Facility, date: int): (r: seq<(int, int)>)
    ensures |r| == 0
  {
    []
  }

  /** The overlap test on bookings is the interval overlap relation, which is symmetric. */
  lemma OverlapIsSymmetric(b: Booking, s: int, e: int)
    ensures Overlaps(b, s, e) <==> IntervalsOverlap(b.start, b.end, s, e)
    ensures IntervalsOverlap(b.start, b.end, s, e) <==> IntervalsOverlap(s, e, b.start, b.end)
  {
  }

  /** Back-to-back intervals do not conflict, on either side. */
  lemma BackToBackIsAvailable(f: Facility, b: Booking, c: int, x: int)
    requires b.facility == f.id && b.status == Confirmed && b.start < b.end
    requires b.end < c && x < b.start
    ensures IsAvailable(f, [b], b.end, c)
    ensures IsAvailable(f, [b], x, b.start)
    ensures !IsAvailable(f, [b], b.end - 1, c)
    ensures !IsAvailable(f, [b], x, b.start + 1)
  {
  }

  /** Example: a confirmed 10:00-12:00 booking, times in minutes. */
  lemma TenToNoonExample(f: Facility, b: Booking)
    requires b.facility == f.id && b.status == Confirmed && b.start == 600 && b.end == 720
    ensures IsAvailable(f, [b], 540, 600)
    ensures !IsAvailable(f, [b], 719, 780)
    ensures IsAvailable(f, [b], 720, 780)
  {
  }

  /** Whatever does not block `[s, e)` cannot make a sub-interval unavailable either. */
  lemma SubIntervalIsAvailable(f: Facility, bookings: seq<Booking>, s: int, e: int, s': int, e': int)
    requires IsAvailable(f, bookings, s, e)
    requires s <= s' && e' <= e
    ensures IsAvailable(f, bookings, s', e')
  {
  }

  /** Only this facility's confirmed bookings are consulted. */
  lemma AvailabilityReadsRelevantOnly(f: Facility, bookings: seq<Booking>, s: int, e: int)
    ensures IsAvailable(f, bookings, s, e)
            == IsAvailable(f, Seqs.Filter(bookings, b => Relevant(f.id, b)), s, e)
  {
  }

  /**
   * Bookings of other facilities and bookings that are pending or cancelled never affect
   * availability: two tables with the same confirmed bookings of `f` give the same answer.
   */
  lemma OnlyConfirmedBookingsOfFacilityMatter(f: Facility, b1: seq<Booking>, b2: seq<Booking>, s: int, e: int)
    requires Seqs.Filter(b1, b => Relevant(f.id, b)) == Seqs.Filter(b2, b => Relevant(f.id, b))
    ensures IsAvailable(f, b1, s, e) == IsAvailable(f, b2, s, e)
  {
  }

  /** With no confirmed booking of the facility, every interval is available. */
  lemma NoConfirmedBookingMeansAvailable(f: Facility, bookings: seq<Booking>, s: int, e: int)
    requires forall i :: 0 <= i < |bookings| ==> !Relevant(f.id, bookings[i])
    ensures IsAvailable(f, bookings, s, e)
  {
  }
}

=== FILE: facility_views.dfy ===
/** The facility views: the public list and the staff-only create, update and delete. */
module FacilityViews {
  import opened Wrappers
  import opened Domain
  import FacilityForms
  import FacilityModel
  import Seqs

  /** How a facility request ends when it does not succeed. */
  datatype FacilityViewError =
    | Forbidden                                             // 403 from the staff test
    | NotFound                                              // 404: no facility with that key
    | Invalid(fields: set<FacilityForms.FacilityField>)     // the form was refused

  /**
   * `FacilityListView.get_queryset`: active facilities, then the filter when it was
   * submitted and is valid (`None` stands for an empty query string).
   */
  function FacilityList(fs: seq<Facility>, input: Option<FacilityForms.FilterInput>): (r: seq<Facility>)
    ensures forall i :: 0 <= i < |r| ==> r[i].isActive && r[i] in fs
    ensures Seqs.IsSubsequence(r, FacilityModel.ActiveFacilities(fs))
    ensures (input.None? || FacilityForms.CleanFilter(input.value).None?) ==> r == FacilityModel.ActiveFacilities(fs)
    ensures input.Some? && FacilityForms.CleanFilter(input.value).Some? ==>
              && (forall i :: 0 <= i < |r| ==> FacilityForms.Matches(input.value, r[i]))
              && (forall i :: 0 <= i < |fs| && fs[i].isActive && FacilityForms.Matches(input.value, fs[i]) ==> fs[i] in r)
  {
    var active := FacilityModel.ActiveFacilities(fs);
    if input.Some? && FacilityForms.CleanFilter(input.value).Some? then
      var r := FacilityForms.FilterQueryset(active, input.value);
      Seqs.SubsequenceMembers(r, active);
      r
    else
      Seqs.SubsequenceRefl(active);
      active
  }

  /** `StaffRequiredMixin.test_func`, guarding create, update and delete. */
  predicate StaffRequired(user: User)
  {
    user.isStaff
  }

  /** The facility carries exactly the values submitted in the form. */
  predicate HoldsInput(f: Facility, input: FacilityForms.FacilityInput)
  {
    && f.name == input.name && f.location == input.location
    && f.capacity == input.capacity && f.isActive == input.isActive
  }

  /** `FacilityCreateView`: staff only; a valid form adds the facility under a fresh key. */
  function CreateFacility(st: Store, user: User, input: FacilityForms.FacilityInput): (r: Result<Store, FacilityViewError>)
    ensures r == Failure(Forbidden) <==> !user.isStaff
    ensures r.Success? <==> user.isStaff && FacilityForms.FieldErrors(input) == {}
    ensures r.Failure? && r.error.Invalid? ==> r.error.fields == FacilityForms.FieldErrors(input)
    ensures user.isStaff && FacilityForms.FieldErrors(input) != {} ==>
              r == Failure(Invalid(FacilityForms.FieldErrors(input)))
    ensures r.Success? ==> && r.value.bookings == st.bookings
                           && |r.value.facilities| == |st.facilities| + 1
                           && r.value.facilities[..|st.facilities|] == st.facilities
                           && r.value.facilities[|st.facilities|].id !in FacilityIds(st.facilities)
                           && HoldsInput(r.value.facilities[|st.facilities|], input)
    ensures r.Success? && ValidStore(st) ==> ValidStore(r.value)
  {
    if !StaffRequired(user) then Failure(Forbidden)
    else match FacilityForms.ValidateFacility(input, NextFacilityId(st.facilities))
      case Failure(errors) => Failure(Invalid(errors))
      case Success(f) =>
        var fs := st.facilities + [f];
        assert forall i :: 0 <= i < |st.facilities| ==> fs[i] == st.facilities[i];
        assert FacilityIds(st.facilities) <= FacilityIds(fs) by {
          forall x | x in FacilityIds(st.facilities) ensures x in FacilityIds(fs) {
            var i :| 0 <= i < |st.facilities| && st.facilities[i].id == x;
            assert fs[i].id == x;
          }
        }
        Success(Store(fs, st.bookings))
  }

  /**
   * `FacilityUpdateView`: staff only (checked before the lookup), then 404 when absent;
   * a valid form replaces the facility's fields and keeps its key.
   */
  function UpdateFacility(st: Store, user: User, id: nat, input: FacilityForms.FacilityInput): (r: Result<Store, FacilityViewError>)
    ensures r == Failure(Forbidden) <==> !user.isStaff
    ensures r == Failure(NotFound) <==> user.isStaff && FacilityIndex(st.facilities, id).None?
    ensures r.Success? <==>
              user.isStaff && FacilityIndex(st.facilities, id).Some? && FacilityForms.FieldErrors(input) == {}
    ensures r.Failure? && r.error.Invalid? ==> r.error.fields == FacilityForms.FieldErrors(input)
    ensures r.Success? ==> && r.value.bookings == st.bookings
                           && |r.value.facilities| == |st.facilities|
                           && var i := FacilityIndex(st.facilities, id).value;
                              && r.value.facilities[i].id == id
                              && HoldsInput(r.value.facilities[i], input)
                              && forall j :: 0 <= j < |st.facilities| && j != i ==> r.value.facilities[j] == st.facilities[j]
    ensures r.Success? && ValidStore(st) ==> ValidStore(r.value)
  {
    if !StaffRequired(user) then Failure(Forbidden)
    else match FacilityIndex(st.facilities, id)
      case None => Failure(NotFound)
      case Some(i) =>
        match FacilityForms.ValidateFacility(input, id)
        case Failure(errors) => Failure(Invalid(errors))
        case Success(f) =>
          var fs := st.facilities[i := f];
          assert FacilityIds(fs) == FacilityIds(st.facilities) by {
            forall x | x in FacilityIds(st.facilities) ensures x in FacilityIds(fs) {
              var j :| 0 <= j < |st.facilities| && st.facilities[j].id == x;
              assert fs[j].id == x;
            }
            forall x | x in FacilityIds(fs) ensures x in FacilityIds(st.facilities) {
              var j :| 0 <= j < |fs| && fs[j].id == x;
              assert st.facilities[j].id == x;
            }
          }
          Success(Store(fs, st.bookings))
  }

  /**
   * `FacilityDeleteView`: staff only, then 404 when absent; the facility is removed and
   * its bookings with it (the foreign key cascades).
   */
  function DeleteFacility(st: Store, user: User, id: nat): (r: Result<Store, FacilityViewError>)
    ensures r == Failure(Forbidden) <==> !user.isStaff
    ensures r == Failure(NotFound) <==> user.isStaff && FacilityIndex(st.facilities, id).None?
    ensures r.Success? <==> user.isStaff && FacilityIndex(st.facilities, id).Some?
    ensures r.Success? ==> forall i :: 0 <= i < |r.value.facilities| ==> r.value.facilities[i].id != id
    ensures r.Success? ==> forall i :: 0 <= i < |st.facilities| && st.facilities[i].id != id ==>
                             st.facilities[i] in r.value.facilities
    ensures r.Success? ==> Seqs.IsSubsequence(r.value.facilities, st.facilities)
    ensures r.Success? ==> forall i :: 0 <= i < |r.value.bookings| ==> r.value.bookings[i].facility != id
    ensures r.Success? ==> forall i :: 0 <= i < |st.bookings| && st.bookings[i].facility != id ==>
                             st.bookings[i] in r.value.bookings
    ensures r.Success? ==> Seqs.IsSubsequence(r.value.bookings, st.bookings)
    ensures r.Success? && ValidStore(st) ==> ValidStore(r.value)
  {
    if !StaffRequired(user) then Failure(Forbidden)
    else match FacilityIndex(st.facilities, id)
      case None => Failure(NotFound)
      case Some(i) =>
        var fs := Seqs.Filter(st.facilities, (f: Facility) => f.id != id);
        var bs := Seqs.Filter(st.bookings, (b: Booking) => b.facility != id);
        Seqs.FilterIsSubsequence(st.bookings, (b: Booking) => b.facility != id);
        Seqs.FilterIsSubsequence(st.facilities, (f: Facility) => f.id != id);
        KeepValid(st, id);
        Success(Store(fs, bs))
  }

  /** Removing a facility together with its bookings keeps the store's guarantees. */
  lemma KeepValid(st: Store, id: nat)
    ensures ValidStore(st) ==>
              ValidStore(Store(Seqs.Filter(st.facilities, (f: Facility) => f.id != id),
                               Seqs.Filter(st.bookings, (b: Booking) => b.facility != id)))
  {
    var fs := Seqs.Filter(st.facilities, (f: Facility) => f.id != id);
    var bs := Seqs.Filter(st.bookings, (b: Booking) => b.facility != id);
    if ValidStore(st) {
      Seqs.FilterIsSubsequence(st.facilities, (f: Facility) => f.id != id);
      Seqs.FilterIsSubsequence(st.bookings, (b: Booking) => b.facility != id);
      Seqs.SubsequenceKeepsDistinctKeys(fs, st.facilities, (f: Facility) => f.id);
      Seqs.SubsequenceKeepsDistinctKeys(bs, st.bookings, (b: Booking) => b.id);
      forall i | 0 <= i < |bs|
        ensures bs[i].facility in FacilityIds(fs) && IsStoredBooking(bs[i])
      {
        assert bs[i] in st.bookings;
        var k :| 0 <= k < |st.bookings| && st.bookings[k] == bs[i];
        var x := bs[i].facility;
        assert x in FacilityIds(st.facilities);
        var j :| 0 <= j < |st.facilities| && st.facilities[j].id == x;
        assert st.facilities[j] in fs;
        var m :| 0 <= m < |fs| && fs[m] == st.facilities[j];
        assert fs[m].id == x;
      }
    }
  }

  /** Create, update and delete are refused to exactly the users who are not staff. */
  lemma StaffGatesEveryChange(st: Store, user: User, id: nat, input: FacilityForms.FacilityInput)
    ensures !user.isStaff <==> CreateFacility(st, user, input) == Failure(Forbidden)
    ensures !user.isStaff <==> UpdateFacility(st, user, id, input) == Failure(Forbidden)
    ensures !user.isStaff <==> DeleteFacility(st, user, id) == Failure(Forbidden)
  {
  }
}

=== FILE: seqs.dfy ===
/** Order-preserving filtering of sequences, the model of a queryset `.filter(...)`. */
module Seqs {

  /** The elements of `s` that satisfy `p`, in their original order. */
  function Filter<T(==)>(s: seq<T>, p: T -> bool): (r: seq<T>)
    ensures |r| <= |s|
    ensures forall i :: 0 <= i < |r| ==> r[i] in s && p(r[i])
    ensures forall i :: 0 <= i < |s| && p(s[i]) ==> s[i] in r
    decreases |s|
  {
    if |s| == 0 then []
    else if p(s[0]) then [s[0]] + Filter(s[1..], p)
    else Filter(s[1..], p)
  }

  /** `a` is obtained from `b` by deleting elements, keeping the order of the rest. */
  predicate IsSubsequence<T(==)>(a: seq<T>, b: seq<T>)
    decreases |b|
  {
    if |a| == 0 then true
    else if |b| == 0 then false
    else (a[0] == b[0] && IsSubsequence(a[1..], b[1..])) || IsSubsequence(a, b[1..])
  }

  /** Number of elements of `s` that satisfy `p` (what a queryset's `update` reports). */
  function Count<T(==)>(s: seq<T>, p: T -> bool): nat
  {
    |Filter(s, p)|
  }

  /** A filtered sequence is a subsequence of its input. */
  lemma {:induction false} FilterIsSubsequence<T>(s: seq<T>, p: T -> bool)
    ensures IsSubsequence(Filter(s, p), s)
    decreases |s|
  {
    if |s| > 0 {
      FilterIsSubsequence(s[1..], p);
      if p(s[0]) {
        assert Filter(s, p)[1..] == Filter(s[1..], p);
      }
    }
  }

  /** Every element of a subsequence occurs in the sequence it came from. */
  lemma {:induction false} SubsequenceMembers<T>(a: seq<T>, b: seq<T>)
    requires IsSubsequence(a, b)
    ensures forall i :: 0 <= i < |a| ==> a[i] in b
    decreases |b|
  {
    if |a| > 0 {
      if a[0] == b[0] && IsSubsequence(a[1..], b[1..]) {
        SubsequenceMembers(a[1..], b[1..]);
        assert forall i :: 1 <= i < |a| ==> a[i] == a[1..][i - 1];
      } else {
        SubsequenceMembers(a, b[1..]);
      }
    }
  }

  /** No two elements of `s` share a key. */
  ghost predicate DistinctKeys<T, K>(s: seq<T>, key: T -> K)
  {
    forall i, j :: 0 <= i < j < |s| ==> key(s[i]) != key(s[j])
  }

  /** Dropping elements keeps keys distinct. */
  lemma {:induction false} SubsequenceKeepsDistinctKeys<T, K>(a: seq<T>, b: seq<T>, key: T -> K)
    requires IsSubsequence(a, b) && DistinctKeys(b, key)
    ensures DistinctKeys(a, key)
    decreases |b|
  {
    if |a| > 0 {
      if a[0] == b[0] && IsSubsequence(a[1..], b[1..]) {
        SubsequenceKeepsDistinctKeys(a[1..], b[1..], key);
        SubsequenceMembers(a[1..], b[1..]);
        forall j | 1 <= j < |a|
          ensures key(a[0]) != key(a[j])
        {
          assert a[1..][j - 1] in b[1..];
          var k :| 0 <= k < |b[1..]| && b[1..][k] == a[j];
          assert b[k + 1] == a[j];
        }
      } else {
        SubsequenceKeepsDistinctKeys(a, b[1..], key);
      }
    }
  }

  /** Every sequence is a subsequence of itself. */
  lemma {:induction false} SubsequenceRefl<T>(s: seq<T>)
    ensures IsSubsequence(s, s)
    decreases |s|
  {
    if |s| > 0 {
      SubsequenceRefl(s[1..]);
    }
  }

  /** Being a subsequence is transitive. */
  lemma {:induction false} SubsequenceTransitive<T>(a: seq<T>, b: seq<T>, c: seq<T>)
    requires IsSubsequence(a, b) && IsSubsequence(b, c)
    ensures IsSubsequence(a, c)
    decreases |c|
  {
    if |a| > 0 {
      if b[0] == c[0] && IsSubsequence(b[1..], c[1..]) {
        if a[0] == b[0] && IsSubsequence(a[1..], b[1..]) {
          SubsequenceTransitive(a[1..], b[1..], c[1..]);
        } else {
          SubsequenceTransitive(a, b[1..], c[1..]);
        }
      } else {
        SubsequenceTransitive(a, b, c[1..]);
      }
    }
  }

  /** Filtering a sequence extended by one element. */
  lemma {:induction false} FilterAppend<T>(s: seq<T>, x: T, p: T -> bool)
    ensures Filter(s + [x], p) == Filter(s, p) + (if p(x) then [x] else [])
    decreases |s|
  {
    if |s| == 0 {
      assert s + [x] == [x];
    } else {
      assert (s + [x])[1..] == s[1..] + [x];
      FilterAppend(s[1..], x, p);
    }
  }

  /** Filtering with a predicate every element satisfies leaves the sequence unchanged. */
  lemma {:induction false} FilterAll<T>(s: seq<T>, p: T -> bool)
    requires forall i :: 0 <= i < |s| ==> p(s[i])
    ensures Filter(s, p) == s
    decreases |s|
  {
    if |s| > 0 {
      FilterAll(s[1..], p);
    }
  }

  /** Filtering with a predicate no element satisfies leaves nothing. */
  lemma FilterNone<T>(s: seq<T>, p: T -> bool)
    requires forall i :: 0 <= i < |s| ==> !p(s[i])
    ensures Filter(s, p) == []
  {
  }

  /** Two predicates that agree on the elements give the same filter. */
  lemma {:induction false} FilterAgree<T>(s: seq<T>, p: T -> bool, q: T -> bool)
    requires forall i :: 0 <= i < |s| ==> p(s[i]) == q(s[i])
    ensures Filter(s, p) == Filter(s, q)
    decreases |s|
  {
    if |s| > 0 {
      FilterAgree(s[1..], p, q);
    }
  }

  /** Filtering twice is filtering once with the conjunction `pq` of the two predicates. */
  lemma {:induction false} FilterCompose<T>(s: seq<T>, p: T -> bool, q: T -> bool, pq: T -> bool)
    requires forall i :: 0 <= i < |s| ==> pq(s[i]) == (p(s[i]) && q(s[i]))
    ensures Filter(Filter(s, p), q) == Filter(s, pq)
    decreases |s|
  {
    if |s| > 0 {
      FilterCompose(s[1..], p, q, pq);
      if p(s[0]) {
        assert Filter(s, p) == [s[0]] + Filter(s[1..], p);
        assert Filter(s, p)[1..] == Filter(s[1..], p);
      }
    }
  }

  /** The order in which two filters are applied does not matter. */
  lemma FilterCommute<T>(s: seq<T>, p: T -> bool, q: T -> bool)
    ensures Filter(Filter(s, p), q) == Filter(Filter(s, q), p)
  {
  }
}

=== FILE: text.dfy ===
/** Case-insensitive substring matching, the model of a `__icontains` lookup. */
module Text {

  /** ASCII lower-casing of one character; other characters are unchanged. */
  function LowerChar(c: char): char
  {
    if 'A' <= c <= 'Z' then (c as int + 32) as char else c
  }

  /** ASCII lower-casing of a string, character by character. */
  function Lower(s: string): (r: string)
    ensures |r| == |s|
    ensures forall i :: 0 <= i < |s| ==> r[i] == LowerChar(s[i])
  {
    seq(|s|, i requires 0 <= i < |s| => LowerChar(s[i]))
  }

  /** Reference meaning of "`needle` occurs in `hay`": some window of `hay` equals it. */
  ghost predicate OccursAt(hay: string, needle: string, k: int)
  {
    0 <= k && k + |needle| <= |hay| && hay[k..k + |needle|] == needle
  }

  ghost predicate Occurs(hay: string, needle: string)
  {
    exists k :: OccursAt(hay, needle, k)
  }

  /** Substring test by scanning the windows of `hay` from the left. */
  function Contains(hay: string, needle: string): (r: bool)
    ensures r <==> Occurs(hay, needle)
    decreases |hay|
  {
    if |needle| > |hay| then false
    else if hay[..|needle|] == needle then
      assert OccursAt(hay, needle, 0);
      true
    else
      var rest := Contains(hay[1..], needle);
      ShiftOccurrence(hay, needle);
      rest
  }

  /** An occurrence in `hay` that is not at position 0 is an occurrence in `hay[1..]`, and back. */
  lemma ShiftOccurrence(hay: string, needle: string)
    requires |hay| > 0
    requires |needle| > |hay| || hay[..|needle|] != needle
    ensures Occurs(hay, needle) <==> Occurs(hay[1..], needle)
  {
    if Occurs(hay, needle) {
      var k :| OccursAt(hay, needle, k);
      assert k != 0;
      assert hay[1..][k - 1..k - 1 + |needle|] == hay[k..k + |needle|];
      assert OccursAt(hay[1..], needle, k - 1);
    }
    if Occurs(hay[1..], needle) {
      var k :| OccursAt(hay[1..], needle, k);
      assert hay[1..][k..k + |needle|] == hay[k + 1..k + 1 + |needle|];
      assert OccursAt(hay, needle, k + 1);
    }
  }

  /** `name__icontains=needle`: substring match after lower-casing both sides. */
  function IContains(hay: string, needle: string): (r: bool)
    ensures r <==> Occurs(Lower(hay), Lower(needle))
  {
    Contains(Lower(hay), Lower(needle))
  }

  lemma LowerIdempotent(s: string)
    ensures Lower(Lower(s)) == Lower(s)
  {
  }

  /** The match ignores the case of both the text and the search term. */
  lemma IContainsIgnoresCase(hay: string, needle: string)
    ensures IContains(Lower(hay), needle) == IContains(hay, needle)
    ensures IContains(hay, Lower(needle)) == IContains(hay, needle)
  {
    LowerIdempotent(hay);
    LowerIdempotent(needle);
  }

  /** The empty search term occurs in every text. */
  lemma IContainsEmpty(hay: string)
    ensures IContains(hay, "")
  {
  }

  /** An exact substring is found whatever the case. */
  lemma IContainsExample()
    ensures IContains("Main Hall", "hALL")
  {
    assert Lower("Main Hall") == "main hall";
    assert Lower("hALL") == "hall";
    assert "main hall"[5..9] == "hall";
    assert OccursAt("main hall", "hall", 5);
  }
}

=== FILE: wrappers.dfy ===
/** Failure-carrying result types shared by the booking model. */
module Wrappers {

  /** A value that may be absent, like a nullable column or an empty form field. */
  datatype Option<+T> = None | Some(value: T)

  /** Either a value or the error that stopped the operation. */
  datatype Result<+R, +E> = Success(value: R) | Failure(error: E)

  /** Outcome of a validation that produces no value: it passes or raises one error. */
  datatype Outcome<+E> = Pass | Fail(error: E)
}
